=== FILE: README.md ===
# A verified model of ALUT's in-memory sound-file loader

This project models `alutLoadMemoryFromFileImage` from the minimal ALUT
header `min_alut.h`. The function takes an in-memory image of a sound file
and returns the audio as PCM for OpenAL. It does three things:

1. Recognises the container by its four-byte magic:
   - Microsoft RIFF/WAVE, walking its chunks up to the first `data` chunk;
   - Sun/NeXT `.snd`, reading its fixed 24-byte header.
2. Picks the OpenAL format tag (`AL_FORMAT_MONO8` ... `AL_FORMAT_STEREO16`)
   from the channel count and bit depth.
3. Converts the payload with the codec the container named:
   - `Linear`: returned unchanged;
   - `PCM8s`: signed 8-bit offset to unsigned;
   - `PCM16`: byte-swapped 16-bit words;
   - `ULaw` and `ALaw`: ITU-T G.711 expansion to 16 bits;
   - `IMA4`: IMA ADPCM in WAVE format 0x0011 blocks.

The model is purely functional. The input image is a `seq<byte>` and every
position in it is a `nat` index, so a read past the end is a proof
obligation rather than a crash. In the WAV branch the loader's
`remainingLength` is always `|buf| - cursor` and cannot underflow. In the
`.snd` branch as written it can: line 167 of min_alut.h subtracts
`dataOffset - AU_HEADER_SIZE` after a wrapped check that an offset past the
end can pass (see the Findings). The value is not read again, so the model
keeps the header's offset and length and leaves that counter out.

Undefined behaviour in the C code becomes an `Error` value, so the model
stays total where the program does not:

- a read past the image;
- a step index outside `step_table`;
- a division by zero;
- a write past the allocation;
- a signed `int` overflow.

The error kinds the loader itself reports are corrupt or truncated data,
unsupported subtype, unsupported file type, and out of memory. Two
parameters stand for things the function finds out at run time:

- `isLittleEndian` is the host byte order;
- `maxAlloc` is the largest request `malloc` grants.

Where the code is evidently wrong, the model has two versions side by side.
The first follows the code as written: `Container.ParseAu`,
`Container.FormatTag`, `Loader.DecodeIma4` and `Loader.Load`. The second is
the evidently intended version: `Container.ParseAuIntended`,
`Container.FormatTagIntended`, `Loader.DecodeIma4Intended` and
`Loader.LoadIntended`. Lemmas connect the two versions. They show where the
versions agree, and they give concrete inputs where they do not (see
"Findings").

Modules, one per file:

- `Bytes` (bytes.dfy):
  - big- and little-endian fields;
  - `int32_t`, `int16_t`, `int8_t` and `size_t` conversions.
- `Audio` (audio.dfy):
  - error kinds, `Result`, `Option`;
  - codec kinds and OpenAL format tags.
- `Container` (container.dfy):
  - magic dispatch, the WAV chunk walk, the `.snd` header;
  - the format-tag switch.
- `Pcm` (pcm.dfy): the PCM8s offset and the PCM16 byte swap.
- `G711` (g711.dfy): mu-law and A-law expansion, with the G.711 compressors as inverses.
- `Ima4` (ima4.dfy): the nibble update, the group and block loops, and per-channel reference decodings.
- `Loader` (loader.dfy): the codec switch and the whole function, as written and as intended.

## Model

| member | source | states |
|---|---|---|
| Container.FmtCodec | min_alut.h:130-136 | Exactly the audio formats 1, 6, 7 and 17 are accepted; any other is an unsupported subtype. Format 6 selects A-law and 7 mu-law, each doubling the depth; 17 selects IMA4, quadrupling it; 1 selects linear PCM or the PCM16 swap, keeping the depth. The PCM16 swap is chosen iff the format is 1, the depth is not 8 and the host is big-endian. |
| Container.ReadFmt | min_alut.h:123-136 | The body parses iff its format code (body offset 0) and bit depth (offset 14) name a supported codec, and the codec and depth are the ones that classification gives. The channel count and the block align are the little-endian 16-bit fields at offsets 2 and 12; the rate is the 32-bit field at offset 4 read as `int32_t`. A `fmt ` chunk never yields signed 8-bit PCM. Its only error is an unsupported subtype. |
| Container.NextChunk | min_alut.h:150-152 | The cursor is the end of the body, or one past it: it skips one pad byte exactly when the chunk length is odd and bytes remain, and never leaves the image. |
| Container.ChunkStep | min_alut.h:116-152 | Fewer than 8 bytes left is corrupt, and so is any chunk whose declared length runs past the image. A `data` chunk before any `fmt ` chunk is corrupt. A chunk that is neither `fmt ` nor `data` and fits is skipped, keeping the remembered format. A pass that goes on continues at `NextChunk` of its body's end: past the 8-byte header and the body, plus the pad byte of an odd-length body, inside the image. A `fmt ` chunk shorter than 16 bytes is corrupt. A `fmt ` chunk that fits goes on iff its body parses, and then replaces the remembered format with that body's, whatever came before, so the last `fmt ` chunk wins. Only a `fmt ` chunk changes the remembered format. A `data` chunk that fits after a `fmt ` chunk stops the walk successfully, with the window right after its header, inside the image, and the codec, channels, depth, rate and block align of the remembered format. |
| Container.WalkChunks | min_alut.h:115-153 | An accepted payload lies inside the image, right after a `data` header that declares its length. The only errors are corrupt data or an unsupported subtype. |
| Container.ParseWav | min_alut.h:110-155 | Fewer than 12 bytes is corrupt. A form type other than "WAVE" is an unsupported subtype. The payload lies inside the image, at offset 20 or later. |
| Container.WalkStopsAtFirstData | min_alut.h:138-144 | Bytes past the first `data` chunk's header never change the walk's result, as long as the declared length still fits. So the first `data` chunk wins. |
| Container.ChunkStepAgrees | min_alut.h:116-152 | One pass of the chunk loop gives the same decision on two images that agree below a bound, when the pass goes on to a header ending by the bound, or stops at a `data` header whose body starts at the bound and fits in both. |
| Container.ReadFmtAgrees | min_alut.h:123-136 | A `fmt ` body reads the same from two images that agree on every byte below a bound, when its 16 bytes end by that bound. |
| Container.WavRoundTrip | min_alut.h:107-155 | A canonical 44-byte-header WAV image parses back to exactly its own fields and its payload at offset 44, or to the audio-format error. As-written and intended parsing agree on it. |
| Container.AuCodec | min_alut.h:168-174 | Exactly the encodings 1, 2, 3 and 27 are accepted. Encoding 1 selects mu-law, 2 signed 8-bit PCM, 27 A-law, and 3 linear PCM on a big-endian host or the PCM16 swap on a little-endian one. The depth is 8 iff the codec is signed 8-bit PCM, and 16 otherwise. The codec is never IMA4. |
| Container.ParseAu | min_alut.h:156-177 | As written: fewer than 24 bytes is corrupt. The rate and channels are the big-endian header fields at offsets 16 and 20, and the codec and depth are what the encoding field at offset 12 selects. The length is the declared field as `size_t`, or for -1 the image size minus 48 minus the data offset, as `size_t`. The data offset is at least 24, the rate and channels at least 1, and the length positive. Only the `size_t`-wrapped end of the payload is checked against the image. The block align is 1. |
| Container.ParseAuIntended | min_alut.h:156-177 | As intended: the payload lies inside the image. The rate, channels, codec and depth come from the header fields as in the as-written parse. A length of -1 means everything after the data offset. Any other length is the declared one. |
| Container.AuAgreesOnDeclaredLength | min_alut.h:164-166 | For a non-negative declared length, the as-written and intended `.snd` parses are equal. |
| Container.AuRestOfFileIsShort | min_alut.h:164 | With a declared length of -1, the as-written payload is 48 bytes shorter than the rest of the image after the data offset. |
| Container.AuRestOfFileOverruns | min_alut.h:164-166 | With a declared length of -1 in an image of 72 bytes or more, the wrapped check passes even when fewer than 48 bytes follow the data offset or the offset lies past the end. The as-written length is then `2^64 + size - 48 - offset` and the window runs past the image. As intended the rest of the file is taken, and an offset past the end is rejected. |
| Container.AuNegativeLengthOverruns | min_alut.h:159-166 | A declared length of -8 with data offset 32 passes the wrapped check. The accepted window ends past the image, and the intended parse rejects it. |
| Container.AuRoundTrip | min_alut.h:156-177 | A `.snd` image with offset 24 and a declared length parses back to exactly its fields and payload, or to the encoding error. As-written and intended parsing agree on it. |
| Container.Parse | min_alut.h:103-178 | Under 4 bytes is corrupt. A magic other than RIFF or `.snd` is an unsupported file type. RIFF payloads lie inside the image. IMA4 comes only from RIFF. `.snd` has block align 1. |
| Container.ParseIntended | min_alut.h:103-178 | Every accepted payload lies inside the image. The only errors are the three container errors. |
| Container.ParseAgreesUnlessAuLengthNegative | min_alut.h:103-178 | The two container parses differ only on `.snd` images whose declared length is negative. |
| Container.TruncatedHeadersRejected | min_alut.h:103-157 | An image cut short at any of these stages is corrupt, as written and as intended: <br>• below 4 bytes <br>• a RIFF image below 12 bytes <br>• a WAVE image below 20 bytes <br>• a `.snd` image below 24 bytes |
| Container.FormatTag | min_alut.h:186-202 | As written: exactly 1 or 2 channels are accepted. A tag is assigned iff the depth is 8 or 16, and then it is the 16-bit tag of that channel count. |
| Container.FormatTagIntended | min_alut.h:186-202 | As intended: accepted iff there are 1 or 2 channels and the depth is 8 or 16. The tag has exactly that channel count and depth. |
| Container.DepthSwitch | min_alut.h:188-197 | The depth switch without `break` assigns a tag iff the depth is 8 or 16, and the tag it assigns is always the `case 16` one. |
| Container.FormatTagIntendedInverse | min_alut.h:186-201 | Every OpenAL format is what its own channel count and depth map to. |
| Container.EightBitTaggedSixteen | min_alut.h:188-197 | An 8-bit stream gets the 16-bit tag as written, and the 8-bit tag as intended. |
| Container.OtherDepthLeavesTagUnset | min_alut.h:186-203 | Any other depth leaves the tag unassigned as written, and is an unsupported subtype as intended. |
| Container.PcmSwapInExactlyOneContainer | min_alut.h:131-171 | On any host, 16-bit linear PCM needs the byte swap in exactly one of the two containers. |
| Pcm.OffsetPcm8 | min_alut.h:208-212 | The length is kept. Each byte becomes its `int8_t` value plus 128, which is the byte plus 128 modulo 256. |
| Pcm.OffsetPcm8Involution | min_alut.h:209-211 | Offsetting twice gives back the input. |
| Pcm.SwapWordSwapsBytes | min_alut.h:217 | On either host byte order, the word expression exchanges the two bytes of the word in memory. |
| Pcm.SwappedByte | min_alut.h:216-217 | After the swap loop rewrites word `w`, its byte `k` is the other byte of that word. |
| Pcm.SwapPcm16 | min_alut.h:213-219 | The length is kept. Every byte of the `length / 2` whole words is replaced by the other byte of its word. A trailing odd byte is unchanged. |
| Pcm.SwapPcm16Involution | min_alut.h:216-218 | Swapping twice gives back the input. |
| G711.ExpLutIsG711 | min_alut.h:227-239 | `exp_lut[e] + (m << (e + 3))` equals the G.711 form `((m << 3) + 0x84 << e) - 0x84`. It lies in [0, 32124] and is zero only for e = m = 0. |
| G711.ULawSample | min_alut.h:228-239 | The reduced branchless expression equals the commented-out reference decoder. Its magnitude is the G.711 expansion of the inverted byte's exponent and mantissa. A negative sample has the inverted sign bit set; with that bit set the sample is at most 0. The sample lies within ±32124. |
| G711.ULawSilence | min_alut.h:237-239 | 0xFF and 0x7F both decode to 0. |
| G711.ULawRoundTrip | min_alut.h:237-239 | The G.711 compressor takes every decoded mu-law byte back to itself. The one exception is the negative zero 0x7F, which comes back as 0xFF. |
| G711.ULawDecode | min_alut.h:220-242 | One sample per input byte. Sample `i` is the expansion of byte `i`. |
| G711.ALawSample | min_alut.h:254-263 | The magnitude is the segment expansion of the flipped byte: <br>• segment 0: `(m << 4) + 8` <br>• segment 1: `(m << 4) + 0x108` <br>• segment s ≥ 2: `((m << 4) + 0x108) << (s - 1)` <br>The sample is positive iff bit 7 of the flipped byte is set. Its magnitude lies in [8, 32256]. |
| G711.ALawSmallestSteps | min_alut.h:254-263 | 0xD5 decodes to +8 and 0x55 to -8. |
| G711.ALawRoundTrip | min_alut.h:254-263 | The G.711 A-law compressor takes every decoded byte back to itself. |
| G711.ALawDecode | min_alut.h:243-266 | One sample per input byte. Sample `i` is the expansion of byte `i`. |
| Ima4.ClampIndex | min_alut.h:311-313 | The new step index lies in [0, 88], and an index already in range is unchanged. |
| Ima4.BranchlessIsReference | min_alut.h:317-330 | The branchless predictor update equals the commented-out reference decoder, including the 16-bit truncation of its running difference. |
| Ima4.ReferenceDiffCongruent | min_alut.h:319-322 | The reference's truncated difference is congruent modulo 2^16 to the branchless magnitude. |
| Ima4.BranchlessPredictor | min_alut.h:328-330 | The result fits an `int16_t`. Modulo 2^16 it is the predictor plus the magnitude when the sign bit is clear, and minus it when the bit is set. |
| Ima4.DecodeNibble | min_alut.h:307-334 | The next predictor is the reference decoder's update of the old predictor with `step_table` at the OLD index, stored into an `int16_t`. The next step index is the clamped sum of the old index and `index_table[nibble]`. The state stays valid: the predictor fits an `int16_t`, and the index fits `step_table`. |
| Ima4.MagnitudeMonotone | min_alut.h:328-330 | Apart from the sign bit, a larger code never moves the predictor less, and never by more than twice the step. |
| Ima4.SignBitMirrors | min_alut.h:311-333 | Codes `x` and `x + 8` move the index alike and move the predictor by opposite amounts. |
| Ima4.ZeroCodeFromSilence | min_alut.h:307-334 | From predictor 0 and index 0, codes 0 and 8 both stay at predictor 0 and index 0. |
| Ima4.DecodeRun | min_alut.h:291-338 | One sample per code. The last sample written is the predictor of the final state. |
| Ima4.DecodeRunStep | min_alut.h:291-338 | Each further code moves the channel state by `DecodeNibble` and writes the new predictor as its sample. |
| Ima4.Scan | min_alut.h:291-338 | The `q` loop's shape for any update: one sample per code, the start state for no codes, and the last sample is the output of the final state. One code gives the updated state and writes its output. With `ScanAppend` this fixes the run on every input. |
| Ima4.ScanAppend | min_alut.h:291-338 | Decoding codes in two pieces, the second from the state the first leaves, is decoding them in one piece. |
| Ima4.Nibbles | min_alut.h:292 | Every byte yields two codes, so a byte sequence yields twice its length in codes. |
| Ima4.NibblesPack | min_alut.h:292 | Byte `k` supplies codes `2k` (its low nibble) and `2k + 1` (its high nibble). Those two codes put back together give the byte. |
| Ima4.GroupsCount | min_alut.h:286-359 | The `j` loop makes `(blockAlign - start - 1) / (4n) + 1` passes when `start < blockAlign`, and none otherwise. |
| Ima4.DecodeGroups | min_alut.h:286-361 | The `j` loop from pass position `j` leaves one state per channel and writes `8n` samples per pass, two per byte it reads. |
| Ima4.GroupIsInterleave | min_alut.h:287-338 | One pass writes each channel's eight samples interleaved, `n` apart. |
| Ima4.GroupStatesByChannel | min_alut.h:286-361 | After the `j` loop, each channel is in the state that decoding its own code stream alone leads to. |
| Ima4.GroupsInterleaveChannels | min_alut.h:286-361 | The `j` loop's output is the interleaving of each channel's own decoding of its code stream. |
| Ima4.GroupSamplesByChannel | min_alut.h:286-361 | Position `i` of the `j` loop's output is sample `i / n` of channel `i % n`'s own decoding. |
| Ima4.PreambleChannel | min_alut.h:280-285 | The preamble predictor is the little-endian word stored into an `int16_t`. The index is the third byte, unchecked. |
| Ima4.DecodeBlock | min_alut.h:278-361 | A block decodes iff its bytes (preamble plus four per channel per pass) lie inside the image, and every preamble index is at most 88 whenever a code is decoded. It writes `BlockSamples` samples. A failure is a read past the image or a bad step index. |
| Ima4.BlockByChannel | min_alut.h:278-361 | Sample `i` of a block is sample `i / n` of channel `i % n`. That channel is decoded on its own, from its preamble state, through its own four-byte pieces of the block. |
| Ima4.DecodeBlocks | min_alut.h:277-362 | On success there are `blocks * BlockSamples` samples and all `blocks * BlockBytes` bytes were inside the image. If those bytes are inside the image, the only possible failure is a bad step index. |
| Ima4.DecodeBlocksIsRepeat | min_alut.h:277-362 | The block loop is `Repeat` of the single-block decoder: each block starts `BlockBytes` bytes after the previous one, and the first failing block ends the loop. |
| Ima4.RepeatSlice | min_alut.h:277-362 | In any such repetition whose blocks each write `samples` values, block `b` succeeded, and its values sit at `Stride(b, samples)` in the output. |
| Ima4.StrideIsProduct | min_alut.h:277-362 | `b` strides of `size` are `b * size`. |
| Ima4.DecodeBlocksAt | min_alut.h:277-362 | The `BlockSamples` values at `b * BlockSamples` in the output are exactly the decoding of the block `b * BlockBytes` bytes after the first (both products written as `Stride`). The cursor is never realigned to `blockAlign`. |
| Ima4.BlockBytesExact | min_alut.h:280-361 | A block consumes at least `blockAlign` bytes. It consumes exactly `blockAlign` iff `4n <= blockAlign` and `(blockAlign - 4n) % 4n == 0`. |
| Loader.AlSizei | min_alut.h:207-364 | The `ALsizei` value is congruent to its source modulo 2^32 and lies in the 32-bit signed range. It equals the source when that is below 2^31. |
| Loader.Allocation | min_alut.h:271 | The request `malloc(x == 0 ? 1 : x)` (also at min_alut.h:221 and 244) is at least 1 byte, and exactly `x` when `x` is positive. |
| Loader.Window | min_alut.h:206-207 | The payload window exists iff it lies inside the image, and then it holds exactly the image bytes. |
| Loader.BlockCount | min_alut.h:270 | `blocks` is the number of whole blocks in the payload: `blocks * blockAlign <= length < (blocks + 1) * blockAlign`. |
| Loader.DecodeLog | min_alut.h:220-266 | Out of memory iff the `size_t` request `length * 2` (1 when zero) exceeds the limit. On success: <br>• the samples are the mu-law expansion of the payload window, or the A-law one when `alaw` is set, one per byte <br>• the size is `2 * (ALsizei)length` <br>Every other failure is undefined behaviour, bounded below: <br>• a read past the image <br>• a write past a wrapped request <br>• an `int` overflow for payloads of 2^30 bytes or more |
| Loader.DecodeIma4 | min_alut.h:267-364 | A block align of 0 is exactly the division-by-zero case. Otherwise it is out of memory exactly when the `size_t` request `(blockAlign - n) * blocks * 4` (1 if zero) exceeds the limit, overruns the allocation exactly when the block loop's samples need more bytes than that, and succeeds exactly when neither happens and the block loop decodes. On success: <br>• the samples are the block loop's output <br>• the size is the `ALsizei` of the `(blockAlign - n) * blocks * 4` request <br>• all writes fit inside the allocation |
| Loader.DecodeIma4Intended | min_alut.h:267-364 | Succeeds iff the block align is positive and a whole number of groups, the blocks decode, and memory suffices. The size is exactly the bytes written. Errors are corrupt data or out of memory. |
| Loader.Decode | min_alut.h:205-364 | The linear cases return the payload window: unchanged, offset, or byte-swapped. They keep its length, report `(ALsizei)length`, and fail only when the window leaves the image. The mu-law case returns the mu-law expansion of the window and the A-law case the A-law expansion, with size `2 * (ALsizei)length`. The IMA4 case is exactly the as-written IMA4 decoder: the block loop's output over `length / blockAlign` blocks, with size the `ALsizei` of the `(blockAlign - n) * blocks * 4` request. |
| Loader.Load | min_alut.h:90-366 | A container error is passed through unchanged. A parsed image loads iff the format switch accepts its channel count and the codec switch succeeds. On success the channel count is 1 or 2, the frequency is the parsed rate, the tag is the as-written switch's, and the payload and size are the codec switch's. |
| Loader.DecodeIntended | min_alut.h:205-366 | Agrees with the as-written switch except for IMA4. The linear cases always succeed. Errors are corrupt data, out of memory, or the mu-law/A-law overflows of huge payloads. |
| Loader.LoadIntended | min_alut.h:90-366 | A parsed image loads iff the intended format switch accepts it and the intended codec switch succeeds. Every success has a tag whose channel count and depth are the parsed ones, and the payload and size of the intended codec switch. Every failure is a reported error or one of the two huge-payload overflows. |
| Loader.LoadAgreesWithIntended | min_alut.h:90-366 | Outside negative `.snd` lengths, when both loaders succeed they return the same payload and frequency. They return the same tag for 16-bit streams, and the same size except for IMA4. |
| Loader.Ima4ZeroBlockAlign | min_alut.h:270 | A block align of 0 divides by zero as written, and is corrupt as intended. |
| Loader.Ima4MisalignedWritesPastAllocation | min_alut.h:270-361 | Stereo with block align 9 and a 9-byte payload: one block reads 16 bytes and writes 32 into a 28-byte allocation. As intended the stream is corrupt. |
| Loader.AlignedSizes | min_alut.h:270-361 | With whole groups per block: <br>• a block consumes exactly `blockAlign` bytes <br>• `blocks` blocks write `4 * (blockAlign - 4n) * blocks` bytes <br>• that is `12n * blocks` bytes less than the allocation |
| Loader.AlignedFits | min_alut.h:270-361 | With whole groups per block and a 32-bit payload length, all `blocks` blocks lie inside the payload, and their samples fit inside the `size_t` allocation. |
| Loader.Ima4AlignedIsDefined | min_alut.h:267-364 | With whole groups per block and the payload inside the image, the as-written IMA4 case can fail only for lack of memory or a bad step index. It never reads or writes out of bounds, and it succeeds exactly when the request fits the limit and every block's step indices are valid. |
| Loader.Ima4SilentMonoBlock | min_alut.h:267-364 | A 36-byte silent mono block with block align 36 loads as written: 64 samples (128 bytes), reported size 140. |
| Loader.AlignedReport | min_alut.h:270-364 | With whole groups per block and a request below 2^31, the reported `ALsizei` size is the bytes written plus `12n` per block. |
| Loader.Ima4SizeCountsUnwritten | min_alut.h:270-364 | A successful aligned IMA4 load reports `12n` bytes per block more than it wrote. As intended the size is exactly the bytes written. |
| Loader.WavPcm16RoundTrip | min_alut.h:107-219 | A canonical 16-bit PCM WAV image loads to its payload on a little-endian host, and to its byte-swapped payload on a big-endian one. It gets the 16-bit tag of its channel count, its rate, and the payload length as size. |
| Loader.WavG711RoundTrip | min_alut.h:107-266 | A canonical 8-bit WAV image of format 6 loads to the A-law expansion of its payload, and one of format 7 to the mu-law expansion. It gets the 16-bit tag of its channel count, its rate, and twice the payload length as size, as written and as intended. |
| Loader.AuG711RoundTrip | min_alut.h:156-266 | A `.snd` image with data offset 24 and encoding 27 loads to the A-law expansion of its payload, and one with encoding 1 to the mu-law expansion. It gets the 16-bit tag of its channel count, its rate, and twice the payload length as size, as written and as intended. |
| Loader.G711Window | min_alut.h:186-266 | A parsed mu-law or A-law window over a payload converts to that law's expansion with size twice its length under both codec switches, and both format switches give it the 16-bit tag. |

## Left out

- `alutLoadMemoryWaveformAU` (min_alut.h:35-88) is not modelled. It needs floating point (`sin`, `floor`), `rand()` and `malloc`, and its opening guard is always true, so it returns NULL. `Container.AuImage` builds `.snd` images in the layout it would write, for round-trip lemmas only.
- The union endianness probe (min_alut.h:95-96) is the parameter `isLittleEndian`.
- `malloc` is the parameter `maxAlloc`: a request above it is out of memory. The leak of `buf` on failure paths is not modelled.
- The `numChannels > MAX_IMA_CHANNELS` return (min_alut.h:276) is not modelled. The format switch has already rejected every channel count but 1 and 2, so it cannot be reached.
- The float conversion of the sample rate (min_alut.h:181) is not modelled; `Loaded.frequency` is the integer rate.
- The in-place conversions write into the caller's buffer; the model returns fresh sequences instead. The output parameters written before a later failure (`*frequency`, `*format`) are not modelled: a failing load is just an error.
- Bytes are 0..255. On a signed-`char` target, the casts at min_alut.h:104-162, except those of line 159, which go through `uint8_t`, would sign-extend bytes of 0x80 and above. The model takes the evident intent of unsigned bytes.
- The C program can hit several kinds of undefined behaviour on one input. The model reports only the first it reaches in its own order of checks: it checks allocation sizes before reads, and whole windows before elementwise reads.
- Loader.Decode: a linear payload window outside the image is reported as a read past the end. The program returns the pointer without reading, and the caller's read overruns.
- Loader.DecodeLog: the ordering of the out-of-memory, overrun and overflow checks is the model's own; each case is undefined behaviour, or a NULL return, in the source.
- Ima4.DecodeBlock: a block whose preamble step index is above 88 is reported as an error. `step_table[index_val]` is then an out-of-bounds read, or a negative index through the `int8_t` conversion. The model does not say what value it would produce.
- The OpenAL format constants are the enum `Audio.AlFormat`, not their numeric values.
- IMA4 zero code: from predictor 0 and index 0, code 0 leaves the predictor at 0, because `step >> 3` is 0 and the sign bit is clear (`Ima4.ZeroCodeFromSilence`).

## Findings

| source | as written | input that shows it | evidently intended | confidence | as-written member | corrected member |
|---|---|---|---|---|---|---|
| min_alut.h:164 | `len == -1` gives `remainingLength - AU_HEADER_SIZE - dataOffset`, but `remainingLength` is already past the 24-byte header, so the payload is 48 bytes short | a `.snd` image with length field 0xFFFFFFFF and data offset 24 | the image size minus the data offset, the rest of the file | not executed | Container.AuRestOfFileIsShort | Container.ParseAuIntended |
| min_alut.h:164-166 | with `len == -1` and fewer than 48 bytes after the data offset, the `size_t` length wraps, and in any image of 72 bytes or more the wrapped check still passes, whatever the data offset | a 100-byte `.snd` image with length field 0xFFFFFFFF and data offset 80: the length becomes 2^64 - 28; with data offset 200 the check passes as well and the `remainingLength -= dataOffset - AU_HEADER_SIZE` of line 167 wraps too | the 20 bytes after the data offset; an offset past the end is rejected as corrupt | not executed | Container.AuRestOfFileOverruns | Container.ParseAuIntended |
| min_alut.h:164-166 | a negative declared length is converted to `size_t`, and the bounds check compares against a wrapped sum | `.snd` with data offset 32, length field -8, a 32-byte image | rejected as corrupt | not executed | Container.AuNegativeLengthOverruns | Container.ParseAuIntended |
| min_alut.h:188-197 | `case 8:` has no `break` and falls into `case 16:` | a mono 8-bit WAV | `AL_FORMAT_MONO8` | not executed | Container.EightBitTaggedSixteen | Container.FormatTagIntended |
| min_alut.h:186-203 | a depth other than 8 or 16 leaves `fmt` unassigned, and it is still stored to `*format` | a mono WAV with 24 bits per sample | rejected as an unsupported subtype | not executed | Container.OtherDepthLeavesTagUnset | Container.FormatTagIntended |
| min_alut.h:270 | `length / blockAlign` with the block align taken from the file unchecked | an IMA4 `fmt ` chunk with block align 0 | rejected as corrupt | not executed | Loader.Ima4ZeroBlockAlign | Loader.DecodeIma4Intended |
| min_alut.h:270-361 | the allocation assumes each block writes `4 * (blockAlign - n)` bytes, but a block align that is not a whole number of groups makes the loop write more | stereo IMA4 with block align 9 and a 9-byte payload: 32 bytes written into 28 | rejected as corrupt | not executed | Loader.Ima4MisalignedWritesPastAllocation | Loader.DecodeIma4Intended |
| min_alut.h:364 | `*size = effective_length`, which counts `12n` bytes per block that are never written | any aligned IMA4 stream, e.g. a silent mono block with block align 36, which writes 128 bytes and reports 140 (`Loader.Ima4SilentMonoBlock`) | size equals the `4 * (blockAlign - 4n)` bytes per block written | not executed | Loader.Ima4SizeCountsUnwritten | Loader.DecodeIma4Intended |

=== FILE: audio.dfy ===
/** Vocabulary shared by the container parser, the codec decoders and the
    loader: failure reasons, the parse/decode result type, the codec kinds
    and the four OpenAL buffer formats. */
module Audio {

  /** Why loading failed. The first four are the reasons the loader's own
      checks stand for; the last five mark places where the C code has
      undefined behaviour (an out-of-bounds read or write, a division by
      zero, a signed overflow) and the model stops instead of guessing what
      the machine does. */
  datatype Error =
    | CorruptOrTruncated
    | UnsupportedSubtype
    | UnsupportedFileType
    | OutOfMemory
    | ReadsPastEnd
    | StepIndexOutOfRange
    | DivisionByZero
    | WritesPastAllocation
    | SignedOverflow

  /** True for the reasons the loader itself reports by returning NULL. */
  predicate Reported(e: Error) {
    e.CorruptOrTruncated? || e.UnsupportedSubtype? || e.UnsupportedFileType? || e.OutOfMemory?
  }

  datatype Option<+T> = None | Some(value: T)

  datatype Result<+T> = Ok(value: T) | Err(error: Error) {

    predicate IsFailure() {
      Err?
    }

    function PropagateFailure<U>(): Result<U>
      requires Err?
    {
      Err(error)
    }

    function Extract(): T
      requires Ok?
    {
      value
    }
  }

  /** How the payload must be converted to native 16-bit (or 8-bit) PCM. */
  datatype CodecKind = Linear | Pcm8s | Pcm16 | ULaw | ALaw | Ima4

  /** The OpenAL buffer formats the loader reports. */
  datatype AlFormat = Mono8 | Mono16 | Stereo8 | Stereo16 {

    function Channels(): int {
      if Mono8? || Mono16? then 1 else 2
    }

    function Bits(): int {
      if Mono8? || Stereo8? then 8 else 16
    }
  }
}

=== FILE: bytes.dfy ===
/** Byte-level reads and machine-integer conversions shared by the loader:
    big- and little-endian fields, two's-complement reinterpretation of
    32- and 16-bit values, and the 64-bit wrap-around of C's `size_t`. */
module Bytes {

  /** One byte of the input image, taken as unsigned. The loader reads its
      input through plain `char`; the model assumes the evident intent,
      values 0..255, rather than a signed-char target's sign extension. */
  type byte = b: int | 0 <= b < 256

  const TwoTo16: int := 0x1_0000
  const TwoTo31: int := 0x8000_0000
  const TwoTo32: int := 0x1_0000_0000
  const TwoTo64: int := 0x1_0000_0000_0000_0000

  /** Four bytes at `i`, most significant first. */
  function BE32(s: seq<byte>, i: nat): (r: nat)
    requires i + 4 <= |s|
    ensures r < TwoTo32
  {
    (s[i] as int) * 0x100_0000 + (s[i + 1] as int) * 0x1_0000 + (s[i + 2] as int) * 0x100 + s[i + 3]
  }

  /** Four bytes at `i`, least significant first. */
  function LE32(s: seq<byte>, i: nat): (r: nat)
    requires i + 4 <= |s|
    ensures r < TwoTo32
  {
    (s[i] as int) + (s[i + 1] as int) * 0x100 + (s[i + 2] as int) * 0x1_0000 + (s[i + 3] as int) * 0x100_0000
  }

  /** Two bytes at `i`, least significant first. */
  function LE16(s: seq<byte>, i: nat): (r: nat)
    requires i + 2 <= |s|
    ensures r < TwoTo16
  {
    (s[i] as int) + (s[i + 1] as int) * 0x100
  }

  /** The `int32_t` whose bit pattern is the unsigned value `u`. */
  function Int32(u: int): (r: int)
    requires 0 <= u < TwoTo32
    ensures -TwoTo31 <= r < TwoTo31
    ensures (r - u) % TwoTo32 == 0
    ensures u < TwoTo31 ==> r == u
  {
    if u < TwoTo31 then u else u - TwoTo32
  }

  /** The `int8_t` whose bit pattern is `b`. */
  function Int8(b: byte): (r: int)
    ensures -128 <= r < 128
    ensures (r - b) % 256 == 0
  {
    if b < 128 then b else b - 256
  }

  /** The value an `int16_t` holds after `x` is stored into it
      (two's-complement truncation, as every target of the source does). */
  function Wrap16(x: int): (r: int)
    ensures -0x8000 <= r < 0x8000
    ensures (r - x) % TwoTo16 == 0
    ensures -0x8000 <= x < 0x8000 ==> r == x
  {
    (x + 0x8000) % TwoTo16 - 0x8000
  }

  /** `Wrap16` depends only on the residue of its argument modulo 2^16. */
  lemma Wrap16Congruent(x: int, y: int)
    requires (x - y) % TwoTo16 == 0
    ensures Wrap16(x) == Wrap16(y)
  {
    var k := (x - y) / TwoTo16;
    assert x == y + k * TwoTo16;
  }

  /** An intermediate store into an `int16_t` does not change the value
      a later sum or difference stores. */
  lemma Wrap16Absorb(a: int, x: int)
    ensures Wrap16(a + Wrap16(x)) == Wrap16(a + x)
    ensures Wrap16(a - Wrap16(x)) == Wrap16(a - x)
  {
    Wrap16Congruent(a + Wrap16(x), a + x);
    Wrap16Congruent(a - Wrap16(x), a - x);
  }

  /** The value a `size_t` holds after `x` is converted to it. */
  function SizeT(x: int): (r: nat)
    ensures r < TwoTo64
    ensures (r - x) % TwoTo64 == 0
    ensures 0 <= x < TwoTo64 ==> r == x
  {
    x % TwoTo64
  }

  /** The 16-bit two's-complement pattern of an `int16_t` value, as stored. */
  function Bits16(v: int): (r: nat)
    requires -0x8000 <= v < 0x8000
    ensures r < TwoTo16
    ensures Wrap16(r) == v
  {
    if v < 0 then v + TwoTo16 else v
  }

  /** Encodings, used to build images in round-trip lemmas. */
  function EncodeLE32(x: nat): (r: seq<byte>)
    requires x < TwoTo32
    ensures |r| == 4 && LE32(r, 0) == x
  {
    var x1 := x / 0x100;
    var x2 := x1 / 0x100;
    assert x == x % 0x100 + 0x100 * (x1 % 0x100 + 0x100 * (x2 % 0x100 + 0x100 * (x2 / 0x100)));
    [x % 0x100, x1 % 0x100, x2 % 0x100, x2 / 0x100]
  }

  function EncodeBE32(x: nat): (r: seq<byte>)
    requires x < TwoTo32
    ensures |r| == 4 && BE32(r, 0) == x
  {
    var x1 := x / 0x100;
    var x2 := x1 / 0x100;
    assert x == x % 0x100 + 0x100 * (x1 % 0x100 + 0x100 * (x2 % 0x100 + 0x100 * (x2 / 0x100)));
    [x2 / 0x100, x2 % 0x100, x1 % 0x100, x % 0x100]
  }

  function EncodeLE16(x: nat): (r: seq<byte>)
    requires x < TwoTo16
    ensures |r| == 2 && LE16(r, 0) == x
  {
    [x % 0x100, x / 0x100]
  }

  /** Reading a field back from a longer sequence that holds its encoding. */
  lemma LE32At(s: seq<byte>, i: nat, x: nat)
    requires x < TwoTo32 && i + 4 <= |s| && s[i..i + 4] == EncodeLE32(x)
    ensures LE32(s, i) == x
  {
    var e := EncodeLE32(x);
    assert s[i] == e[0] && s[i + 1] == e[1] && s[i + 2] == e[2] && s[i + 3] == e[3];
  }

  lemma BE32At(s: seq<byte>, i: nat, x: nat)
    requires x < TwoTo32 && i + 4 <= |s| && s[i..i + 4] == EncodeBE32(x)
    ensures BE32(s, i) == x
  {
    var e := EncodeBE32(x);
    assert s[i] == e[0] && s[i + 1] == e[1] && s[i + 2] == e[2] && s[i + 3] == e[3];
  }

  lemma LE16At(s: seq<byte>, i: nat, x: nat)
    requires x < TwoTo16 && i + 2 <= |s| && s[i..i + 2] == EncodeLE16(x)
    ensures LE16(s, i) == x
  {
    var e := EncodeLE16(x);
    assert s[i] == e[0] && s[i + 1] == e[1];
  }

  /** A field read inside a part of a longer sequence is the field read
      at the same place in the part. */
  lemma LE32Within(s: seq<byte>, a: nat, part: seq<byte>, i: nat)
    requires a + |part| <= |s| && s[a..a + |part|] == part && i + 4 <= |part|
    ensures LE32(s, a + i) == LE32(part, i)
  {
    assert s[a + i] == part[i] && s[a + i + 1] == part[i + 1];
    assert s[a + i + 2] == part[i + 2] && s[a + i + 3] == part[i + 3];
  }

  lemma BE32Within(s: seq<byte>, a: nat, part: seq<byte>, i: nat)
    requires a + |part| <= |s| && s[a..a + |part|] == part && i + 4 <= |part|
    ensures BE32(s, a + i) == BE32(part, i)
  {
    assert s[a + i] == part[i] && s[a + i + 1] == part[i + 1];
    assert s[a + i + 2] == part[i + 2] && s[a + i + 3] == part[i + 3];
  }

  lemma LE16Within(s: seq<byte>, a: nat, part: seq<byte>, i: nat)
    requires a + |part| <= |s| && s[a..a + |part|] == part && i + 2 <= |part|
    ensures LE16(s, a + i) == LE16(part, i)
  {
    assert s[a + i] == part[i] && s[a + i + 1] == part[i + 1];
  }

  /** A byte survives conversion to `bv8` and back, and so does a `bv8`. */
  lemma ByteBits(b: byte)
    ensures (b as bv8) as int == b
  {
    assert b % 256 == b;
  }

  lemma BitsByte(x: bv8)
    ensures (x as int) as bv8 == x
  {
  }
}

=== FILE: container.dfy ===
/** The container half of `alutLoadMemoryFromFileImage` (min_alut.h:103-202):
    magic-number dispatch, the RIFF/WAVE chunk walk, the Sun/NeXT `.snd`
    header, and the channel/depth switch that picks the OpenAL format tag.

    Every read below is of `buf[k]` for a `k` Dafny proves in range, so the
    parser never reads past the end of the image. The cursor is an index
    into the whole image. In the WAV branch the source's `remainingLength`
    is `|buf| - cursor` and so never underflows; in the `.snd` branch it is
    not read after the header check, which `ParseAu` models in `size_t`. */
module Container {
  import opened Bytes
  import opened Audio

  const RiffMagic: nat := 0x5249_4646  // "RIFF"
  const WaveMagic: nat := 0x5741_5645  // "WAVE"
  const FmtMagic: nat := 0x666D_7420   // "fmt "
  const DataMagic: nat := 0x6461_7461  // "data"
  const SndMagic: nat := 0x2E73_6E64   // ".snd"

  /** Size of the fixed `.snd` header, magic included. */
  const AuHeaderSize: int := 24

  /** `.snd` encoding codes the loader accepts. */
  const AuULaw8: int := 1
  const AuPcm8: int := 2
  const AuPcm16: int := 3
  const AuALaw8: int := 27

  /** What the parser hands to the decoder: codec, stream format, and the
      payload window `[offset, offset + length)` of the input image. */
  datatype Parsed = Parsed(
    codec: CodecKind,
    channels: int,
    bits: int,
    rate: int,
    blockAlign: nat,
    offset: nat,
    length: nat)

  /** The fields kept from the most recent `fmt ` chunk. */
  datatype Fmt = Fmt(codec: CodecKind, channels: int, bits: int, rate: int, blockAlign: nat)

  /** How much the reported bit depth is scaled for each WAV codec. */
  function DepthFactor(codec: CodecKind): int {
    match codec
    case ALaw => 2
    case ULaw => 2
    case Ima4 => 4
    case _ => 1
  }

  // ---------------------------------------------------------------------
  // WAV
  // ---------------------------------------------------------------------

  /** The WAV audio-format code switch: which codec, and the bit depth the
      loader reports afterwards. */
  function FmtCodec(audioFormat: int, bits: int, isLittleEndian: bool): (r: Result<(CodecKind, int)>)
    ensures r.Ok? <==> audioFormat == 1 || audioFormat == 6 || audioFormat == 7 || audioFormat == 17
    ensures r.Err? ==> r.error == UnsupportedSubtype
    ensures r.Ok? ==> r.value.1 == bits * DepthFactor(r.value.0) && r.value.0 != Pcm8s
    ensures r.Ok? ==> (r.value.0 == Pcm16 <==> audioFormat == 1 && bits != 8 && !isLittleEndian)
    ensures audioFormat == 1 ==> r.value.0 in {Linear, Pcm16}
    ensures audioFormat == 6 ==> r.value.0 == ALaw
    ensures audioFormat == 7 ==> r.value.0 == ULaw
    ensures audioFormat == 17 ==> r.value.0 == Ima4
  {
    match audioFormat
    case 1 => Ok((if bits == 8 || isLittleEndian then Linear else Pcm16, bits))
    case 6 => Ok((ALaw, bits * 2))
    case 7 => Ok((ULaw, bits * 2))
    case 17 => Ok((Ima4, bits * 4))
    case _ => Err(UnsupportedSubtype)
  }

  /** The fields of a `fmt ` chunk whose body starts at `body`. */
  function ReadFmt(buf: seq<byte>, body: nat, isLittleEndian: bool): (r: Result<Fmt>)
    requires body + 16 <= |buf|
    ensures r.Ok? ==> r.value.codec != Pcm8s
    ensures r.Ok? ==> r.value.channels == LE16(buf, body + 2) && r.value.blockAlign == LE16(buf, body + 12)
    ensures r.Ok? <==> FmtCodec(LE16(buf, body), LE16(buf, body + 14), isLittleEndian).Ok?
    ensures r.Ok? ==>
      && r.value.rate == Int32(LE32(buf, body + 4))
      && (r.value.codec, r.value.bits) == FmtCodec(LE16(buf, body), LE16(buf, body + 14), isLittleEndian).value
    ensures r.Err? ==> r.error == UnsupportedSubtype
  {
    var audioFormat := LE16(buf, body);
    var channels := LE16(buf, body + 2);
    var rate := Int32(LE32(buf, body + 4));
    var blockAlign := LE16(buf, body + 12);
    var bits := LE16(buf, body + 14);
    var (codec, bits') :- FmtCodec(audioFormat, bits, isLittleEndian);
    Ok(Fmt(codec, channels, bits', rate, blockAlign))
  }

  /** The cursor after a chunk whose body ends at `end`: one pad byte follows
      an odd-length body, unless the image is already exhausted. */
  function NextChunk(buf: seq<byte>, end: nat, chunkLength: nat): (r: nat)
    requires end <= |buf|
    ensures end <= r <= end + 1 && r <= |buf|
    ensures r == end + 1 <==> chunkLength % 2 == 1 && end < |buf|
  {
    if chunkLength % 2 == 1 && end != |buf| then end + 1 else end
  }

  /** A `data` chunk header declaring `length` bytes starts at `pos`. */
  predicate DataHeaderAt(buf: seq<byte>, pos: int, length: nat) {
    0 <= pos && pos + 8 <= |buf| && BE32(buf, pos) == DataMagic && LE32(buf, pos + 4) == length
  }

  /** What one pass of the chunk loop decides: stop with a result, or go on
      at `next` with the `fmt ` fields seen so far. */
  datatype Step = Done(result: Result<Parsed>) | Continue(next: nat, fmt: Option<Fmt>)

  /** One pass of the chunk loop on the chunk header at `pos`. */
  function ChunkStep(buf: seq<byte>, pos: nat, fmt: Option<Fmt>, isLittleEndian: bool): (s: Step)
    requires pos <= |buf|
    requires fmt.Some? ==> fmt.value.codec != Pcm8s
    ensures |buf| < pos + 8 ==> s == Done(Err(CorruptOrTruncated))
    ensures s.Continue? ==> pos + 8 + LE32(buf, pos + 4) <= s.next <= pos + 9 + LE32(buf, pos + 4)
    ensures s.Continue? ==> pos + 8 + LE32(buf, pos + 4) <= |buf| && s.next == NextChunk(buf, pos + 8 + LE32(buf, pos + 4), LE32(buf, pos + 4))
    ensures pos + 8 <= |buf| && LE32(buf, pos + 4) > |buf| - pos - 8 ==> s == Done(Err(CorruptOrTruncated))
    ensures pos + 8 <= |buf| && BE32(buf, pos) !in {FmtMagic, DataMagic} && LE32(buf, pos + 4) <= |buf| - pos - 8 ==>
      s == Continue(NextChunk(buf, pos + 8 + LE32(buf, pos + 4), LE32(buf, pos + 4)), fmt)
    ensures s.Continue? ==> s.next <= |buf| && (s.fmt.Some? ==> s.fmt.value.codec != Pcm8s)
    ensures s.Continue? && BE32(buf, pos) != FmtMagic ==> s.fmt == fmt
    ensures s.Done? && s.result.Ok? ==>
      && s.result.value.offset == pos + 8
      && DataHeaderAt(buf, pos, s.result.value.length)
      && s.result.value.offset + s.result.value.length <= |buf|
      && s.result.value.codec != Pcm8s
    ensures s.Done? && s.result.Err? ==>
      s.result.error == CorruptOrTruncated || s.result.error == UnsupportedSubtype
    ensures fmt.None? && pos + 8 <= |buf| && BE32(buf, pos) == DataMagic ==> s == Done(Err(CorruptOrTruncated))
    ensures pos + 8 <= |buf| && BE32(buf, pos) == FmtMagic && LE32(buf, pos + 4) < 16 ==> s == Done(Err(CorruptOrTruncated))
    ensures pos + 8 <= |buf| && BE32(buf, pos) == FmtMagic && 16 <= LE32(buf, pos + 4) <= |buf| - pos - 8 ==>
      (s.Continue? <==> ReadFmt(buf, pos + 8, isLittleEndian).Ok?)
    ensures s.Continue? && BE32(buf, pos) == FmtMagic ==>
      pos + 24 <= |buf| && ReadFmt(buf, pos + 8, isLittleEndian).Ok? && s.fmt == Some(ReadFmt(buf, pos + 8, isLittleEndian).value)
    ensures fmt.Some? && pos + 8 <= |buf| && BE32(buf, pos) == DataMagic && pos + 8 + LE32(buf, pos + 4) <= |buf| ==>
      s.Done? && s.result.Ok?
    ensures s.Done? && s.result.Ok? ==>
      && fmt.Some?
      && var (p, f) := (s.result.value, fmt.value);
         p.codec == f.codec && p.channels == f.channels && p.bits == f.bits && p.rate == f.rate && p.blockAlign == f.blockAlign
  {
    if |buf| - pos < 8 then Done(Err(CorruptOrTruncated))
    else
      var magic := BE32(buf, pos);
      var chunkLength := LE32(buf, pos + 4);
      var body := pos + 8;
      var remaining := |buf| - body;
      if magic == FmtMagic then
        if chunkLength < 16 || remaining < chunkLength then Done(Err(CorruptOrTruncated))
        else
          match ReadFmt(buf, body, isLittleEndian)
          case Err(e) => Done(Err(e))
          case Ok(f) => Continue(NextChunk(buf, body + chunkLength, chunkLength), Some(f))
      else if magic == DataMagic then
        if fmt.None? || remaining < chunkLength then Done(Err(CorruptOrTruncated))
        else
          var f := fmt.value;
          Done(Ok(Parsed(f.codec, f.channels, f.bits, f.rate, f.blockAlign, body, chunkLength)))
      else if remaining < chunkLength then Done(Err(CorruptOrTruncated))
      else Continue(NextChunk(buf, body + chunkLength, chunkLength), fmt)
  }

  /** The chunk loop of the WAV branch from the chunk header at `pos`; `fmt`
      holds the last `fmt ` chunk seen. The walk ends with the first `data`
      chunk, whose declared length is the payload at the cursor. */
  function WalkChunks(buf: seq<byte>, pos: nat, fmt: Option<Fmt>, isLittleEndian: bool): (r: Result<Parsed>)
    requires pos <= |buf|
    requires fmt.Some? ==> fmt.value.codec != Pcm8s
    ensures r.Ok? ==> pos + 8 <= r.value.offset && r.value.offset + r.value.length <= |buf|
    ensures r.Ok? ==> DataHeaderAt(buf, r.value.offset - 8, r.value.length)
    ensures r.Ok? ==> r.value.codec != Pcm8s
    ensures r.Err? ==> r.error == CorruptOrTruncated || r.error == UnsupportedSubtype
    decreases |buf| - pos
  {
    match ChunkStep(buf, pos, fmt, isLittleEndian)
    case Done(result) => result
    case Continue(next, fmt') => WalkChunks(buf, next, fmt', isLittleEndian)
  }

  /** The WAV branch after the "RIFF" magic: the RIFF size (unused) and the
      "WAVE" form type, then the chunk walk. */
  function ParseWav(buf: seq<byte>, isLittleEndian: bool): (r: Result<Parsed>)
    requires 4 <= |buf|
    ensures |buf| < 12 ==> r == Err(CorruptOrTruncated)
    ensures 12 <= |buf| && BE32(buf, 8) != WaveMagic ==> r == Err(UnsupportedSubtype)
    ensures r.Ok? ==> 20 <= r.value.offset && r.value.offset + r.value.length <= |buf|
    ensures r.Ok? ==> r.value.codec != Pcm8s
  {
    if |buf| - 4 < 8 then Err(CorruptOrTruncated)
    else if BE32(buf, 8) != WaveMagic then Err(UnsupportedSubtype)
    else WalkChunks(buf, 12, None, isLittleEndian)
  }

  /** Whatever follows the header of the first `data` chunk (its body and
      any later chunks) never influences the walk: only the declared length
      must still fit. So the first `data` chunk wins. */
  lemma {:induction false} WalkStopsAtFirstData(
    buf: seq<byte>, other: seq<byte>, pos: nat, fmt: Option<Fmt>, isLittleEndian: bool)
    requires pos <= |buf| && (fmt.Some? ==> fmt.value.codec != Pcm8s)
    requires WalkChunks(buf, pos, fmt, isLittleEndian).Ok?
    requires var p := WalkChunks(buf, pos, fmt, isLittleEndian).value;
      p.offset + p.length <= |other| && other[..p.offset] == buf[..p.offset]
    ensures pos <= |other|
    ensures WalkChunks(other, pos, fmt, isLittleEndian) == WalkChunks(buf, pos, fmt, isLittleEndian)
    decreases |buf| - pos
  {
    var p := WalkChunks(buf, pos, fmt, isLittleEndian).value;
    var step := ChunkStep(buf, pos, fmt, isLittleEndian);
    if step.Continue? {
      assert step.next + 8 <= p.offset;
    } else {
      assert step.result == Ok(p);
    }
    ChunkStepAgrees(buf, other, pos, fmt, isLittleEndian, p.offset, p.length);
    if step.Continue? {
      WalkStopsAtFirstData(buf, other, step.next, step.fmt, isLittleEndian);
    }
  }

  /** One pass of the chunk loop reads nothing at or past `bound`, except
      that a `data` chunk's declared length must fit, when the pass goes on
      to a header that ends by `bound` or stops at a `data` header just
      before it. */
  lemma ChunkStepAgrees(buf: seq<byte>, other: seq<byte>, pos: nat, fmt: Option<Fmt>, isLittleEndian: bool, bound: nat, length: nat)
    requires pos <= |buf| && (fmt.Some? ==> fmt.value.codec != Pcm8s)
    requires bound <= |buf| && bound + length <= |other| && other[..bound] == buf[..bound]
    requires var step := ChunkStep(buf, pos, fmt, isLittleEndian);
      && (step.Continue? ==> step.next + 8 <= bound)
      && (step.Done? ==> step.result.Ok? && step.result.value.offset == bound && step.result.value.length == length)
    ensures pos <= |other|
    ensures ChunkStep(other, pos, fmt, isLittleEndian) == ChunkStep(buf, pos, fmt, isLittleEndian)
  {
    var body := pos + 8;
    assert body <= bound;
    SamePrefixFields(buf, other, bound, pos);
    if BE32(buf, pos) == FmtMagic {
      // ChunkStep rejects a `fmt ` chunk under 16 bytes, so a pass that goes
      // on has read its whole 16-byte body below `bound`.
      assert LE32(buf, pos + 4) >= 16;
      ReadFmtAgrees(buf, other, bound, body, isLittleEndian);
    }
  }

  /** The chunk header at `pos` reads the same from two images that agree
      below `bound`. */
  lemma SamePrefixFields(buf: seq<byte>, other: seq<byte>, bound: nat, pos: nat)
    requires bound <= |buf| && bound <= |other| && other[..bound] == buf[..bound] && pos + 8 <= bound
    ensures BE32(other, pos) == BE32(buf, pos) && LE32(other, pos + 4) == LE32(buf, pos + 4)
  {
    BE32Within(other, 0, buf[..bound], pos);
    BE32Within(buf, 0, buf[..bound], pos);
    LE32Within(other, 0, buf[..bound], pos + 4);
    LE32Within(buf, 0, buf[..bound], pos + 4);
  }

  /** A `fmt ` body reads the same from two images that agree below
      `bound`. */
  lemma ReadFmtAgrees(buf: seq<byte>, other: seq<byte>, bound: nat, body: nat, isLittleEndian: bool)
    requires bound <= |buf| && bound <= |other| && other[..bound] == buf[..bound] && body + 16 <= bound
    ensures ReadFmt(other, body, isLittleEndian) == ReadFmt(buf, body, isLittleEndian)
  {
    var part := buf[..bound];
    LE16Within(other, 0, part, body);
    LE16Within(buf, 0, part, body);
    LE16Within(other, 0, part, body + 2);
    LE16Within(buf, 0, part, body + 2);
    LE32Within(other, 0, part, body + 4);
    LE32Within(buf, 0, part, body + 4);
    LE16Within(other, 0, part, body + 12);
    LE16Within(buf, 0, part, body + 12);
    LE16Within(other, 0, part, body + 14);
    LE16Within(buf, 0, part, body + 14);
  }

  /** The 12-byte RIFF header of a WAV image. */
  function RiffHeader(size: nat): (r: seq<byte>)
    requires size < TwoTo32
    ensures |r| == 12 && BE32(r, 0) == RiffMagic && BE32(r, 8) == WaveMagic
  {
    var r := EncodeBE32(RiffMagic) + EncodeLE32(size) + EncodeBE32(WaveMagic);
    BE32At(r, 0, RiffMagic);
    BE32At(r, 8, WaveMagic);
    r
  }

  /** A 24-byte `fmt ` chunk with a 16-byte body. */
  function FmtChunk(audioFormat: nat, channels: nat, rate: nat, blockAlign: nat, bits: nat): (r: seq<byte>)
    requires audioFormat < TwoTo16 && channels < TwoTo16 && rate < TwoTo32
    requires blockAlign < TwoTo16 && bits < TwoTo16
    ensures |r| == 24 && BE32(r, 0) == FmtMagic && LE32(r, 4) == 16
    ensures LE16(r, 8) == audioFormat && LE16(r, 10) == channels && LE32(r, 12) == rate
    ensures LE16(r, 20) == blockAlign && LE16(r, 22) == bits
  {
    var head := EncodeBE32(FmtMagic) + EncodeLE32(16);
    var body := EncodeLE16(audioFormat) + EncodeLE16(channels) + EncodeLE32(rate)
      + EncodeLE32(rate * blockAlign % TwoTo32) + EncodeLE16(blockAlign) + EncodeLE16(bits);
    var r := head + body;
    BE32At(r, 0, FmtMagic);
    LE32At(r, 4, 16);
    assert r[8..24] == body;
    LE16At(body, 0, audioFormat);
    LE16At(body, 2, channels);
    LE32At(body, 4, rate);
    LE16At(body, 12, blockAlign);
    LE16At(body, 14, bits);
    LE16Within(r, 8, body, 0);
    LE16Within(r, 8, body, 2);
    LE32Within(r, 8, body, 4);
    LE16Within(r, 8, body, 12);
    LE16Within(r, 8, body, 14);
    r
  }

  /** The 8-byte header of a `data` chunk of `length` bytes. */
  function DataHeader(length: nat): (r: seq<byte>)
    requires length < TwoTo32
    ensures |r| == 8 && DataHeaderAt(r, 0, length)
  {
    var r := EncodeBE32(DataMagic) + EncodeLE32(length);
    BE32At(r, 0, DataMagic);
    LE32At(r, 4, length);
    r
  }

  /** A canonical WAV image: the RIFF header, one 16-byte `fmt ` chunk and
      one `data` chunk holding `payload`. */
  function WavImage(audioFormat: nat, channels: nat, rate: nat, blockAlign: nat, bits: nat,
                    payload: seq<byte>): (r: seq<byte>)
    requires audioFormat < TwoTo16 && channels < TwoTo16 && rate < TwoTo32
    requires blockAlign < TwoTo16 && bits < TwoTo16 && |payload| + 36 < TwoTo32
    ensures |r| == 44 + |payload| && r[44..] == payload
    ensures BE32(r, 0) == RiffMagic && BE32(r, 8) == WaveMagic
    ensures BE32(r, 12) == FmtMagic && LE32(r, 16) == 16
    ensures LE16(r, 20) == audioFormat && LE16(r, 22) == channels && LE32(r, 24) == rate
    ensures LE16(r, 32) == blockAlign && LE16(r, 34) == bits
    ensures DataHeaderAt(r, 36, |payload|)
  {
    var header := WavHeader(audioFormat, channels, rate, blockAlign, bits, |payload|);
    var r := header + payload;
    assert r[0..44] == header && r[44..] == payload;
    BE32Within(r, 0, header, 0);
    BE32Within(r, 0, header, 8);
    BE32Within(r, 0, header, 12);
    LE32Within(r, 0, header, 16);
    LE16Within(r, 0, header, 20);
    LE16Within(r, 0, header, 22);
    LE32Within(r, 0, header, 24);
    LE16Within(r, 0, header, 32);
    LE16Within(r, 0, header, 34);
    BE32Within(r, 0, header, 36);
    LE32Within(r, 0, header, 40);
    r
  }

  /** The 44 header bytes of a canonical WAV image: the RIFF header, a
      16-byte `fmt ` chunk and the `data` chunk header. */
  function WavHeader(audioFormat: nat, channels: nat, rate: nat, blockAlign: nat, bits: nat,
                     length: nat): (r: seq<byte>)
    requires audioFormat < TwoTo16 && channels < TwoTo16 && rate < TwoTo32
    requires blockAlign < TwoTo16 && bits < TwoTo16 && length + 36 < TwoTo32
    ensures |r| == 44
    ensures BE32(r, 0) == RiffMagic && BE32(r, 8) == WaveMagic
    ensures BE32(r, 12) == FmtMagic && LE32(r, 16) == 16
    ensures LE16(r, 20) == audioFormat && LE16(r, 22) == channels && LE32(r, 24) == rate
    ensures LE16(r, 32) == blockAlign && LE16(r, 34) == bits
    ensures BE32(r, 36) == DataMagic && LE32(r, 40) == length
  {
    var riff := RiffHeader(length + 36);
    var fmt := FmtChunk(audioFormat, channels, rate, blockAlign, bits);
    var data := DataHeader(length);
    var r := riff + fmt + data;
    assert r[0..12] == riff && r[12..36] == fmt && r[36..44] == data;
    BE32Within(r, 0, riff, 0);
    BE32Within(r, 0, riff, 8);
    BE32Within(r, 12, fmt, 0);
    LE32Within(r, 12, fmt, 4);
    LE16Within(r, 12, fmt, 8);
    LE16Within(r, 12, fmt, 10);
    LE32Within(r, 12, fmt, 12);
    LE16Within(r, 12, fmt, 20);
    LE16Within(r, 12, fmt, 22);
    BE32Within(r, 36, data, 0);
    LE32Within(r, 36, data, 4);
    r
  }

  /** A canonical WAV image parses back to its own fields and payload when
      its audio-format code is supported, and is an unsupported subtype
      otherwise. */
  lemma WavRoundTrip(audioFormat: nat, channels: nat, rate: nat, blockAlign: nat, bits: nat,
                     payload: seq<byte>, isLittleEndian: bool)
    requires audioFormat < TwoTo16 && channels < TwoTo16 && rate < TwoTo32
    requires blockAlign < TwoTo16 && bits < TwoTo16 && |payload| + 36 < TwoTo32
    ensures var img := WavImage(audioFormat, channels, rate, blockAlign, bits, payload);
      && Parse(img, isLittleEndian) == ParseIntended(img, isLittleEndian)
      && Parse(img, isLittleEndian) ==
         match FmtCodec(audioFormat, bits, isLittleEndian)
         case Ok((codec, b)) => Ok(Parsed(codec, channels, b, Int32(rate), blockAlign, 44, |payload|))
         case Err(e) => Err(e)
  {
    var img := WavImage(audioFormat, channels, rate, blockAlign, bits, payload);
    assert Parse(img, isLittleEndian) == ParseIntended(img, isLittleEndian) == WalkChunks(img, 12, None, isLittleEndian);
    assert NextChunk(img, 36, 16) == 36;
    match FmtCodec(audioFormat, bits, isLittleEndian)
    case Err(e) =>
      assert ReadFmt(img, 20, isLittleEndian) == Err(e);
      assert ChunkStep(img, 12, None, isLittleEndian) == Done(Err(e));
    case Ok((codec, b)) =>
      var f := Fmt(codec, channels, b, Int32(rate), blockAlign);
      assert ReadFmt(img, 20, isLittleEndian) == Ok(f);
      assert ChunkStep(img, 12, None, isLittleEndian) == Continue(36, Some(f));
      assert WalkChunks(img, 12, None, isLittleEndian) == WalkChunks(img, 36, Some(f), isLittleEndian);
      assert ChunkStep(img, 36, Some(f), isLittleEndian)
          == Done(Ok(Parsed(codec, channels, b, Int32(rate), blockAlign, 44, |payload|)));
  }

  // ---------------------------------------------------------------------
  // Sun/NeXT .snd
  // ---------------------------------------------------------------------

  /** The `.snd` encoding switch: codec and the bit depth reported. */
  function AuCodec(encoding: int, isLittleEndian: bool): (r: Result<(CodecKind, int)>)
    ensures r.Ok? <==> encoding == AuULaw8 || encoding == AuPcm8 || encoding == AuPcm16 || encoding == AuALaw8
    ensures r.Err? ==> r.error == UnsupportedSubtype
    ensures r.Ok? ==> (r.value.1 == 8 <==> r.value.0 == Pcm8s) && (r.value.1 == 8 || r.value.1 == 16)
    ensures r.Ok? ==> r.value.0 != Ima4
    ensures encoding == AuULaw8 ==> r.value.0 == ULaw
    ensures encoding == AuPcm8 ==> r.value.0 == Pcm8s
    ensures encoding == AuPcm16 ==> (r.value.0 == Pcm16 <==> isLittleEndian) && r.value.0 in {Linear, Pcm16}
    ensures encoding == AuALaw8 ==> r.value.0 == ALaw
  {
    match encoding
    case 1 => Ok((ULaw, 16))
    case 2 => Ok((Pcm8s, 8))
    case 3 => Ok((if !isLittleEndian then Linear else Pcm16, 16))
    case 27 => Ok((ALaw, 16))
    case _ => Err(UnsupportedSubtype)
  }

  /** The `.snd` header fields, each read big-endian as an `int32_t`. */
  function AuOffsetField(buf: seq<byte>): int requires 24 <= |buf| { Int32(BE32(buf, 4)) }
  function AuLengthField(buf: seq<byte>): int requires 24 <= |buf| { Int32(BE32(buf, 8)) }
  function AuEncodingField(buf: seq<byte>): int requires 24 <= |buf| { Int32(BE32(buf, 12)) }
  function AuRateField(buf: seq<byte>): int requires 24 <= |buf| { Int32(BE32(buf, 16)) }
  function AuChannelsField(buf: seq<byte>): int requires 24 <= |buf| { Int32(BE32(buf, 20)) }

  /** The `.snd` branch as written. The payload length is computed and
      checked in 64-bit `size_t`: a declared length of -1 ("rest of file")
      yields `remaining - 24 - dataOffset`, and a negative declared length
      wraps. The check then compares `remaining` with a wrapped sum, so the
      accepted window is NOT guaranteed to lie inside the image. */
  function ParseAu(buf: seq<byte>, isLittleEndian: bool): (r: Result<Parsed>)
    requires 4 <= |buf|
    ensures |buf| < 24 ==> r == Err(CorruptOrTruncated)
    ensures r.Ok? ==> 24 <= |buf| && r.value.offset == AuOffsetField(buf) >= 24
    ensures r.Ok? ==> r.value.rate >= 1 && r.value.channels >= 1 && 0 < r.value.length < TwoTo64
    ensures r.Ok? ==>
      && r.value.rate == AuRateField(buf) && r.value.channels == AuChannelsField(buf)
      && AuCodec(AuEncodingField(buf), isLittleEndian) == Ok((r.value.codec, r.value.bits))
    ensures r.Ok? ==>
      r.value.length == (if AuLengthField(buf) == -1 then SizeT(|buf| - 2 * AuHeaderSize - r.value.offset) else SizeT(AuLengthField(buf)))
    ensures r.Ok? ==> SizeT(r.value.offset - AuHeaderSize + r.value.length) <= |buf| - AuHeaderSize
    ensures r.Ok? ==> r.value.blockAlign == 1 && r.value.codec != Ima4
    ensures r.Ok? ==> (r.value.bits == 8 || r.value.bits == 16)
  {
    if |buf| - 4 < 20 then Err(CorruptOrTruncated)
    else
      var dataOffset := AuOffsetField(buf);
      var len := AuLengthField(buf);
      var encoding := AuEncodingField(buf);
      var rate := AuRateField(buf);
      var channels := AuChannelsField(buf);
      var remaining := |buf| - 24;
      var length := if len == -1 then SizeT(remaining - AuHeaderSize - dataOffset) else SizeT(len);
      if dataOffset < AuHeaderSize || length == 0 || rate < 1 || channels < 1
         || remaining < SizeT((dataOffset - AuHeaderSize) + length)
      then Err(CorruptOrTruncated)
      else
        var (codec, bits) :- AuCodec(encoding, isLittleEndian);
        Ok(Parsed(codec, channels, bits, rate, 1, dataOffset, length))
  }

  /** The `.snd` branch as evidently intended: -1 means everything after
      the data offset, any other negative length is corrupt, and the window
      is checked against the image in unbounded arithmetic. */
  function ParseAuIntended(buf: seq<byte>, isLittleEndian: bool): (r: Result<Parsed>)
    requires 4 <= |buf|
    ensures |buf| < 24 ==> r == Err(CorruptOrTruncated)
    ensures r.Ok? ==> 24 <= |buf| && r.value.offset == AuOffsetField(buf) >= 24
    ensures r.Ok? ==> 0 < r.value.length && r.value.offset + r.value.length <= |buf|
    ensures r.Ok? && AuLengthField(buf) == -1 ==> r.value.offset + r.value.length == |buf|
    ensures r.Ok? && AuLengthField(buf) != -1 ==> r.value.length == AuLengthField(buf)
    ensures r.Ok? ==> r.value.rate >= 1 && r.value.channels >= 1
    ensures r.Ok? ==>
      && r.value.rate == AuRateField(buf) && r.value.channels == AuChannelsField(buf)
      && AuCodec(AuEncodingField(buf), isLittleEndian) == Ok((r.value.codec, r.value.bits))
    ensures r.Ok? ==> r.value.blockAlign == 1 && r.value.codec != Ima4
    ensures r.Ok? ==> (r.value.bits == 8 || r.value.bits == 16)
  {
    if |buf| - 4 < 20 then Err(CorruptOrTruncated)
    else
      var dataOffset := AuOffsetField(buf);
      var len := AuLengthField(buf);
      var rate := AuRateField(buf);
      var channels := AuChannelsField(buf);
      var length := if len == -1 then |buf| - dataOffset else len;
      if dataOffset < AuHeaderSize || length <= 0 || rate < 1 || channels < 1
         || dataOffset + length > |buf|
      then Err(CorruptOrTruncated)
      else
        var (codec, bits) :- AuCodec(AuEncodingField(buf), isLittleEndian);
        Ok(Parsed(codec, channels, bits, rate, 1, dataOffset, length))
  }

  /** Whenever the declared length is not negative, the as-written branch
      and the intended one agree. */
  lemma AuAgreesOnDeclaredLength(buf: seq<byte>, isLittleEndian: bool)
    requires 24 <= |buf| && AuLengthField(buf) >= 0
    ensures ParseAu(buf, isLittleEndian) == ParseAuIntended(buf, isLittleEndian)
  {
  }

  /** A declared length of -1 makes the as-written branch drop the last 48
      bytes of the payload, where "rest of file" is meant. */
  lemma AuRestOfFileIsShort(buf: seq<byte>, isLittleEndian: bool)
    requires 24 <= |buf| < TwoTo31 && AuLengthField(buf) == -1
    requires 24 <= AuOffsetField(buf) && AuOffsetField(buf) + 48 < |buf|
    requires AuRateField(buf) >= 1 && AuChannelsField(buf) >= 1
    requires AuCodec(AuEncodingField(buf), isLittleEndian).Ok?
    ensures ParseAu(buf, isLittleEndian).Ok? && ParseAuIntended(buf, isLittleEndian).Ok?
    ensures ParseAu(buf, isLittleEndian).value.length + 48
         == ParseAuIntended(buf, isLittleEndian).value.length
         == |buf| - AuOffsetField(buf)
  {
  }

  /** A declared length of -1 with fewer than 48 bytes after the data
      offset (or an offset past the end): once the image has 72 bytes, the
      wrapped check passes whatever the offset, and the as-written length
      wraps to nearly 2^64, so the window runs past the image. The intended
      branch takes the rest of the file, or rejects an offset past the end. */
  lemma AuRestOfFileOverruns(buf: seq<byte>, isLittleEndian: bool)
    requires 72 <= |buf| < TwoTo31 && AuLengthField(buf) == -1
    requires 24 <= AuOffsetField(buf) && |buf| < AuOffsetField(buf) + 48
    requires AuRateField(buf) >= 1 && AuChannelsField(buf) >= 1
    requires AuCodec(AuEncodingField(buf), isLittleEndian).Ok?
    ensures ParseAu(buf, isLittleEndian).Ok?
    ensures ParseAu(buf, isLittleEndian).value.length == TwoTo64 + |buf| - 48 - AuOffsetField(buf)
    ensures ParseAu(buf, isLittleEndian).value.offset + ParseAu(buf, isLittleEndian).value.length > |buf|
    ensures ParseAuIntended(buf, isLittleEndian).Ok? <==> AuOffsetField(buf) < |buf|
  {
    var off := AuOffsetField(buf);
    var remaining := |buf| - 24;
    var length := SizeT(remaining - AuHeaderSize - off);
    assert length == TwoTo64 + remaining - AuHeaderSize - off;
    var sum := off - AuHeaderSize + length;
    assert sum == TwoTo64 + (remaining - 2 * AuHeaderSize);
    assert sum % TwoTo64 == remaining - 2 * AuHeaderSize;
  }

  /** A `.snd` image with a 24-byte header (no padding before `body`). */
  function AuImage(dataOffset: nat, lengthField: nat, encoding: nat, rate: nat, channels: nat,
                   body: seq<byte>): (r: seq<byte>)
    requires dataOffset < TwoTo32 && lengthField < TwoTo32 && encoding < TwoTo32
    requires rate < TwoTo32 && channels < TwoTo32
    ensures |r| == 24 + |body|
    ensures BE32(r, 0) == SndMagic
    ensures AuOffsetField(r) == Int32(dataOffset) && AuLengthField(r) == Int32(lengthField)
    ensures AuEncodingField(r) == Int32(encoding) && AuRateField(r) == Int32(rate)
    ensures AuChannelsField(r) == Int32(channels)
    ensures r[24..] == body
  {
    var r := EncodeBE32(SndMagic) + EncodeBE32(dataOffset) + EncodeBE32(lengthField)
      + EncodeBE32(encoding) + EncodeBE32(rate) + EncodeBE32(channels) + body;
    BE32At(r, 0, SndMagic);
    BE32At(r, 4, dataOffset);
    BE32At(r, 8, lengthField);
    BE32At(r, 12, encoding);
    BE32At(r, 16, rate);
    BE32At(r, 20, channels);
    r
  }

  /** A declared length of -8 with a data offset of 32 passes the size_t
      check (the sum wraps to 0) and yields a window that runs 2^64 - 8
      bytes past the 32-byte image; the intended branch rejects it. */
  lemma AuNegativeLengthOverruns(isLittleEndian: bool)
    ensures var buf := AuImage(32, 0xFFFF_FFF8, 1, 8000, 1, [0, 0, 0, 0, 0, 0, 0, 0]);
      && ParseAu(buf, isLittleEndian).Ok?
      && ParseAu(buf, isLittleEndian).value.offset + ParseAu(buf, isLittleEndian).value.length > |buf|
      && ParseAuIntended(buf, isLittleEndian) == Err(CorruptOrTruncated)
  {
    var buf := AuImage(32, 0xFFFF_FFF8, 1, 8000, 1, [0, 0, 0, 0, 0, 0, 0, 0]);
    assert AuLengthField(buf) == -8;
    assert SizeT(-8) == TwoTo64 - 8;
    assert SizeT(32 - AuHeaderSize + (TwoTo64 - 8)) == 0;
  }

  /** An image in the layout the source's waveform synthesizer writes (data
      offset 24, declared length, encoding, rate, channels) parses back to
      exactly its fields and payload, as written and as intended. */
  lemma AuRoundTrip(encoding: nat, rate: nat, channels: nat, payload: seq<byte>, isLittleEndian: bool)
    requires encoding < TwoTo31 && 1 <= rate < TwoTo31 && 1 <= channels < TwoTo31
    requires 0 < |payload| < TwoTo31
    ensures var img := AuImage(24, |payload|, encoding, rate, channels, payload);
      && ParseAu(img, isLittleEndian) == ParseAuIntended(img, isLittleEndian)
      && ParseAu(img, isLittleEndian) ==
         match AuCodec(encoding, isLittleEndian)
         case Ok((codec, bits)) => Ok(Parsed(codec, channels, bits, rate, 1, 24, |payload|))
         case Err(e) => Err(e)
  {
    var img := AuImage(24, |payload|, encoding, rate, channels, payload);
    AuAgreesOnDeclaredLength(img, isLittleEndian);
  }

  // ---------------------------------------------------------------------
  // Dispatch
  // ---------------------------------------------------------------------

  /** The container step as written: the four-byte magic picks the branch. */
  function Parse(buf: seq<byte>, isLittleEndian: bool): (r: Result<Parsed>)
    ensures |buf| < 4 ==> r == Err(CorruptOrTruncated)
    ensures 4 <= |buf| && BE32(buf, 0) != RiffMagic && BE32(buf, 0) != SndMagic
      ==> r == Err(UnsupportedFileType)
    ensures r.Ok? ==> 4 <= |buf| && (BE32(buf, 0) == RiffMagic || BE32(buf, 0) == SndMagic)
    ensures r.Ok? && BE32(buf, 0) == RiffMagic ==> r.value.offset + r.value.length <= |buf|
    ensures r.Ok? && r.value.codec == Ima4 ==> BE32(buf, 0) == RiffMagic
    ensures r.Ok? && BE32(buf, 0) == SndMagic ==> r.value.blockAlign == 1
  {
    if |buf| < 4 then Err(CorruptOrTruncated)
    else if BE32(buf, 0) == RiffMagic then ParseWav(buf, isLittleEndian)
    else if BE32(buf, 0) == SndMagic then ParseAu(buf, isLittleEndian)
    else Err(UnsupportedFileType)
  }

  /** The container step with the intended `.snd` length handling: every
      accepted window lies inside the image. */
  function ParseIntended(buf: seq<byte>, isLittleEndian: bool): (r: Result<Parsed>)
    ensures |buf| < 4 ==> r == Err(CorruptOrTruncated)
    ensures 4 <= |buf| && BE32(buf, 0) != RiffMagic && BE32(buf, 0) != SndMagic
      ==> r == Err(UnsupportedFileType)
    ensures r.Ok? ==> r.value.offset + r.value.length <= |buf|
    ensures r.Ok? && r.value.codec == Ima4 ==> 4 <= |buf| && BE32(buf, 0) == RiffMagic
    ensures r.Err? ==>
      r.error == CorruptOrTruncated || r.error == UnsupportedSubtype || r.error == UnsupportedFileType
  {
    if |buf| < 4 then Err(CorruptOrTruncated)
    else if BE32(buf, 0) == RiffMagic then ParseWav(buf, isLittleEndian)
    else if BE32(buf, 0) == SndMagic then ParseAuIntended(buf, isLittleEndian)
    else Err(UnsupportedFileType)
  }

  /** The two container steps differ only on `.snd` images whose declared
      length is negative. */
  lemma ParseAgreesUnlessAuLengthNegative(buf: seq<byte>, isLittleEndian: bool)
    requires 24 <= |buf| && BE32(buf, 0) == SndMagic ==> AuLengthField(buf) >= 0
    ensures Parse(buf, isLittleEndian) == ParseIntended(buf, isLittleEndian)
  {
    if 4 <= |buf| && BE32(buf, 0) == SndMagic && 24 <= |buf| {
      AuAgreesOnDeclaredLength(buf, isLittleEndian);
    }
  }

  /** Truncating an image below the minimum for the stage it reached is a
      corruption error, never a read past the end. */
  lemma TruncatedHeadersRejected(buf: seq<byte>, isLittleEndian: bool)
    requires
      || |buf| < 4
      || (BE32(buf, 0) == RiffMagic && |buf| < 12)
      || (BE32(buf, 0) == RiffMagic && BE32(buf, 8) == WaveMagic && |buf| < 20)
      || (BE32(buf, 0) == SndMagic && |buf| < 24)
    ensures Parse(buf, isLittleEndian) == Err(CorruptOrTruncated)
    ensures ParseIntended(buf, isLittleEndian) == Err(CorruptOrTruncated)
  {
  }

  // ---------------------------------------------------------------------
  // Format tag
  // ---------------------------------------------------------------------

  /** A `switch (bitsPerSample)` with `case 8:` and `case 16:` and no
      `break`: entering at `case 8` runs on into `case 16`. */
  function DepthSwitch(bits: int, tag8: AlFormat, tag16: AlFormat): (r: Option<AlFormat>)
    ensures r.Some? <==> bits == 8 || bits == 16
    ensures r.Some? ==> r.value == tag16
  {
    var enters8 := bits == 8;
    var enters16 := enters8 || bits == 16;
    if enters16 then Some(tag16) else if enters8 then Some(tag8) else None
  }

  /** The channel/depth switch as written. `None` is a tag left unassigned. */
  function FormatTag(channels: int, bits: int): (r: Result<Option<AlFormat>>)
    ensures r.Ok? <==> channels == 1 || channels == 2
    ensures r.Err? ==> r.error == UnsupportedSubtype
    ensures r.Ok? ==> (r.value.Some? <==> bits == 8 || bits == 16)
    ensures r.Ok? && r.value.Some? ==> r.value.value.Channels() == channels && r.value.value.Bits() == 16
  {
    if channels == 1 then Ok(DepthSwitch(bits, Mono8, Mono16))
    else if channels == 2 then Ok(DepthSwitch(bits, Stereo8, Stereo16))
    else Err(UnsupportedSubtype)
  }

  /** The channel/depth switch as evidently intended: each depth gets its
      own tag and any other depth is an unsupported subtype. */
  function FormatTagIntended(channels: int, bits: int): (r: Result<AlFormat>)
    ensures r.Ok? <==> (channels == 1 || channels == 2) && (bits == 8 || bits == 16)
    ensures r.Ok? ==> r.value.Channels() == channels && r.value.Bits() == bits
    ensures r.Err? ==> r.error == UnsupportedSubtype
  {
    if channels == 1 && bits == 8 then Ok(Mono8)
    else if channels == 1 && bits == 16 then Ok(Mono16)
    else if channels == 2 && bits == 8 then Ok(Stereo8)
    else if channels == 2 && bits == 16 then Ok(Stereo16)
    else Err(UnsupportedSubtype)
  }

  /** Every OpenAL format is reached from its own channel count and depth. */
  lemma FormatTagIntendedInverse(f: AlFormat)
    ensures FormatTagIntended(f.Channels(), f.Bits()) == Ok(f)
  {
  }

  /** 8-bit streams get the 16-bit tag as written, the 8-bit tag as intended. */
  lemma EightBitTaggedSixteen(channels: int)
    requires channels == 1 || channels == 2
    ensures FormatTag(channels, 8) == Ok(Some(if channels == 1 then Mono16 else Stereo16))
    ensures FormatTagIntended(channels, 8) == Ok(if channels == 1 then Mono8 else Stereo8)
  {
  }

  /** Any other depth leaves the tag unassigned as written, and is rejected
      as intended. */
  lemma OtherDepthLeavesTagUnset(channels: int, bits: int)
    requires (channels == 1 || channels == 2) && bits != 8 && bits != 16
    ensures FormatTag(channels, bits) == Ok(None)
    ensures FormatTagIntended(channels, bits) == Err(UnsupportedSubtype)
  {
  }

  /** 16-bit linear PCM needs a byte swap in exactly one of the two
      containers on any host: WAV stores it little-endian, `.snd` big-endian. */
  lemma PcmSwapInExactlyOneContainer(isLittleEndian: bool)
    ensures (FmtCodec(1, 16, isLittleEndian).value.0 == Pcm16)
        != (AuCodec(AuPcm16, isLittleEndian).value.0 == Pcm16)
  {
  }
}

=== FILE: g711.dfy ===
/** The two logarithmic 8-bit decoders of the loader (min_alut.h:220-266),
    expanding ITU-T G.711 mu-law and A-law bytes to 16-bit samples, and the
    matching G.711 compressors, used only as inverse partners: every code
    byte survives expansion followed by compression. */
module G711 {
  import opened Bytes

  /** Powers of two up to the largest shift either decoder uses. */
  const Pow2: seq<nat> := [1, 2, 4, 8, 16, 32, 64, 128, 256, 512, 1024]

  function Abs(x: int): nat {
    if x < 0 then -x else x
  }

  // ---------------------------------------------------------------------
  // mu-law
  // ---------------------------------------------------------------------

  /** `exp_lut`: the magnitude of mantissa 0 in each exponent segment. */
  const ExpLut: seq<int> := [0, 132, 396, 924, 1980, 4092, 8316, 16764]

  /** The G.711 mu-law expansion of exponent `e` and mantissa `m`:
      `(((m << 3) + 0x84) << e) - 0x84`. */
  function ULawMagnitude(e: nat, m: nat): int
    requires e < 8
  {
    (m * 8 + 0x84) * Pow2[e] - 0x84
  }

  /** The table form of the loader equals the G.711 form. */
  lemma ExpLutIsG711(e: nat, m: nat)
    requires e < 8 && m < 16
    ensures ExpLut[e] + m * Pow2[e + 3] == ULawMagnitude(e, m)
    ensures 0 <= ULawMagnitude(e, m) <= 32124
    ensures ULawMagnitude(e, m) == 0 <==> e == 0 && m == 0
  {
    if e == 0 {} else if e == 1 {} else if e == 2 {} else if e == 3 {}
    else if e == 4 {} else if e == 5 {} else if e == 6 {} else {}
  }

  /** The commented-out reference decoder the reduced form replaced. */
  function ULawReference(b: byte): int {
    var mulaw := 255 - b;
    var sign := mulaw / 128 * 0x80;
    var exponent := mulaw / 16 % 8;
    var mantissa := mulaw % 16;
    var sample := ExpLut[exponent] + mantissa * Pow2[exponent + 3];
    if sign != 0 then -sample else sample
  }

  /** One mu-law byte, in the reduced branchless form the loader runs:
      invert, split sign / exponent / mantissa, multiply by -1 or +1. */
  function ULawSample(b: byte): (r: int)
    ensures r == ULawReference(b)
    ensures Abs(r) == ULawMagnitude((255 - b) / 16 % 8, (255 - b) % 16)
    ensures r < 0 ==> (255 - b) >= 0x80
    ensures (255 - b) >= 0x80 ==> r <= 0
    ensures -32124 <= r <= 32124
  {
    var mulaw := 255 - b;
    var exponent := mulaw / 16 % 8;
    var mantissa := mulaw % 16;
    ExpLutIsG711(exponent, mantissa);
    var negative := if mulaw / 128 * 0x80 != 0 then 1 else 0;
    var magnitude := ExpLut[exponent] + mantissa * Pow2[exponent + 3];
    var sign := 1 + negative * -2;
    assert sign * magnitude == (if negative == 1 then -magnitude else magnitude);
    Wrap16(sign * magnitude)
  }

  /** Both zero codes decode to silence. */
  lemma ULawSilence()
    ensures ULawSample(0xFF) == 0 && ULawSample(0x7F) == 0
  {
  }

  /** The G.711 mu-law compressor (not part of the loader): clip, bias by
      0x84, find the exponent, keep four mantissa bits, invert. */
  function ULawEncode(v: int): byte
    requires -0x8000 <= v < 0x8000
  {
    var sign := if v < 0 then 0x80 else 0;
    var biased := (if Abs(v) > 32635 then 32635 else Abs(v)) + 0x84;
    var e := ULawExponent(biased);
    var m := biased / Pow2[e + 3] % 16;
    255 - (sign + e * 16 + m)
  }

  /** The segment of a biased magnitude below 2^15. */
  function ULawExponent(biased: nat): nat {
    if biased < 0x100 then 0 else if biased < 0x200 then 1 else if biased < 0x400 then 2
    else if biased < 0x800 then 3 else if biased < 0x1000 then 4 else if biased < 0x2000 then 5
    else if biased < 0x4000 then 6 else 7
  }

  lemma ULawSegmentRecovered(e: nat, m: nat)
    requires e < 8 && m < 16
    ensures ULawExponent(ULawMagnitude(e, m) + 0x84) == e
    ensures (ULawMagnitude(e, m) + 0x84) / Pow2[e + 3] % 16 == m
  {
    if e == 0 {
      assert ULawMagnitude(e, m) + 0x84 == (m + 16) * 8 + 4;
    } else if e == 1 {
      assert ULawMagnitude(e, m) + 0x84 == (m + 16) * 16 + 8;
    } else if e == 2 {
      assert ULawMagnitude(e, m) + 0x84 == (m + 16) * 32 + 16;
    } else if e == 3 {
      assert ULawMagnitude(e, m) + 0x84 == (m + 16) * 64 + 32;
    } else if e == 4 {
      assert ULawMagnitude(e, m) + 0x84 == (m + 16) * 128 + 64;
    } else if e == 5 {
      assert ULawMagnitude(e, m) + 0x84 == (m + 16) * 256 + 128;
    } else if e == 6 {
      assert ULawMagnitude(e, m) + 0x84 == (m + 16) * 512 + 256;
    } else {
      assert ULawMagnitude(e, m) + 0x84 == (m + 16) * 1024 + 512;
    }
  }

  /** Every mu-law byte except the negative zero 0x7F comes back from
      expansion followed by compression; 0x7F comes back as 0xFF. */
  lemma ULawRoundTrip(b: byte)
    ensures ULawEncode(ULawSample(b)) == (if b == 0x7F then 0xFF else b)
  {
    var mulaw := 255 - b;
    var e := mulaw / 16 % 8;
    var m := mulaw % 16;
    assert mulaw == mulaw / 128 * 0x80 + e * 16 + m;
    ExpLutIsG711(e, m);
    ULawSegmentRecovered(e, m);
  }

  /** The mu-law branch: one sample per input byte. */
  function ULawDecode(s: seq<byte>): (r: seq<int>)
    ensures |r| == |s|
    ensures forall i :: 0 <= i < |s| ==> r[i] == ULawSample(s[i])
  {
    seq(|s|, i requires 0 <= i < |s| => ULawSample(s[i]))
  }

  // ---------------------------------------------------------------------
  // A-law
  // ---------------------------------------------------------------------

  /** `a_val ^= 0x55`: A-law inverts the even bits. */
  function ALawFlip(b: byte): (r: byte)
    ensures ALawFlipBack(r) == b
  {
    var x := (b as bv8) ^ 0x55;
    BitsByte(x);
    ByteBits(b);
    assert (x ^ 0x55) == b as bv8;
    x as int
  }

  function ALawFlipBack(a: byte): byte {
    ((a as bv8) ^ 0x55) as int
  }

  /** The magnitude of segment `seg`, mantissa `m`. */
  function ALawMagnitude(seg: nat, m: nat): int
    requires seg < 8
  {
    var t := m * 16;
    if seg == 0 then t + 8
    else if seg == 1 then t + 0x108
    else (t + 0x108) * Pow2[seg - 1]
  }

  /** One A-law byte as the loader decodes it: XOR with 0x55, then the
      piecewise-linear segment expansion, positive iff bit 7 is set. */
  function ALawSample(b: byte): (r: int)
    ensures Abs(r) == ALawMagnitude(ALawFlip(b) / 16 % 8, ALawFlip(b) % 16)
    ensures r > 0 <==> ALawFlip(b) >= 0x80
    ensures 8 <= Abs(r) <= 32256
  {
    var a := ALawFlip(b);
    var t := a % 16 * 16;
    var seg := a / 16 % 8;
    var t' := if seg == 0 then t + 8 else if seg == 1 then t + 0x108 else (t + 0x108) * Pow2[seg - 1];
    ALawMagnitudeBounds(seg, a % 16);
    Wrap16(if a / 128 == 1 then t' else -t')
  }

  lemma ALawMagnitudeBounds(seg: nat, m: nat)
    requires seg < 8 && m < 16
    ensures 8 <= ALawMagnitude(seg, m) <= 32256
  {
    if seg == 0 {} else if seg == 1 {} else if seg == 2 {} else if seg == 3 {}
    else if seg == 4 {} else if seg == 5 {} else if seg == 6 {} else {}
  }

  /** 0xD5 is the smallest positive step, 0x55 the smallest negative one. */
  lemma ALawSmallestSteps()
    ensures ALawSample(0xD5) == 8 && ALawSample(0x55) == -8
  {
    assert ALawFlip(0xD5) == 0x80;
    assert ALawFlip(0x55) == 0;
  }

  /** The segment of a magnitude below 2^15. */
  function ALawSegment(mag: nat): nat {
    if mag < 0x100 then 0 else if mag < 0x200 then 1 else if mag < 0x400 then 2
    else if mag < 0x800 then 3 else if mag < 0x1000 then 4 else if mag < 0x2000 then 5
    else if mag < 0x4000 then 6 else 7
  }

  /** The G.711 A-law compressor (not part of the loader). */
  function ALawEncode(v: int): byte
    requires -0x8000 <= v < 0x8000
  {
    var sign := if v >= 0 then 0x80 else 0;
    var mag := if Abs(v) > 0x7FFF then 0x7FFF else Abs(v);
    var seg := ALawSegment(mag);
    var m := mag / Pow2[if seg == 0 then 4 else seg + 3] % 16;
    ALawFlipBack(sign + seg * 16 + m)
  }

  lemma ALawSegmentRecovered(seg: nat, m: nat)
    requires seg < 8 && m < 16
    ensures ALawSegment(ALawMagnitude(seg, m)) == seg
    ensures ALawMagnitude(seg, m) / Pow2[if seg == 0 then 4 else seg + 3] % 16 == m
  {
    if seg == 0 {} else if seg == 1 {} else if seg == 2 {} else if seg == 3 {}
    else if seg == 4 {} else if seg == 5 {} else if seg == 6 {} else {}
  }

  /** Every A-law byte comes back from expansion followed by compression. */
  lemma ALawRoundTrip(b: byte)
    ensures ALawEncode(ALawSample(b)) == b
  {
    var a := ALawFlip(b);
    var seg := a / 16 % 8;
    var m := a % 16;
    var v := ALawSample(b);
    var sign := if a >= 0x80 then 0x80 else 0;
    ByteFields(a);
    ALawMagnitudeBounds(seg, m);
    ALawSegmentRecovered(seg, m);
    assert Abs(v) == ALawMagnitude(seg, m);
    assert (if v >= 0 then 0x80 else 0) == sign;
    assert ALawEncode(v) == ALawFlipBack(a);
  }

  /** A byte is its sign bit, three segment bits and four mantissa bits. */
  lemma ByteFields(a: byte)
    ensures a == (if a >= 0x80 then 0x80 else 0) + a / 16 % 8 * 16 + a % 16
  {
  }

  /** The A-law branch: one sample per input byte. */
  function ALawDecode(s: seq<byte>): (r: seq<int>)
    ensures |r| == |s|
    ensures forall i :: 0 <= i < |s| ==> r[i] == ALawSample(s[i])
  {
    seq(|s|, i requires 0 <= i < |s| => ALawSample(s[i]))
  }
}

=== FILE: ima4.dfy ===
/** The IMA4 (IMA ADPCM) branch of the loader (min_alut.h:267-364): each
    block starts with a four-byte preamble per channel (the initial 16-bit
    predictor, the step index, one skipped byte), followed by groups of four
    bytes per channel, each holding eight 4-bit codes, low nibble first.
    Each code moves the channel's predictor by a step taken from the step
    table and moves the step index by the index table. The decoded samples
    are written interleaved, channel `k` of sample `s` at `s * n + k`. */
module Ima4 {
  import opened Bytes
  import opened Audio

  /** `step_table`, the 89 quantizer step sizes, in rows of ten. */
  const StepRows: seq<seq<nat>> := [
    [7, 8, 9, 10, 11, 12, 13, 14, 16, 17],
    [19, 21, 23, 25, 28, 31, 34, 37, 41, 45],
    [50, 55, 60, 66, 73, 80, 88, 97, 107, 118],
    [130, 143, 157, 173, 190, 209, 230, 253, 279, 307],
    [337, 371, 408, 449, 494, 544, 598, 658, 724, 796],
    [876, 963, 1060, 1166, 1282, 1411, 1552, 1707, 1878, 2066],
    [2272, 2499, 2749, 3024, 3327, 3660, 4026, 4428, 4871, 5358],
    [5894, 6484, 7132, 7845, 8630, 9493, 10442, 11487, 12635, 13899],
    [15289, 16818, 18500, 20350, 22385, 24623, 27086, 29794, 32767]]

  /** `step_table[index]`. */
  function StepTable(index: int): nat
    requires 0 <= index <= MaxIndex
  {
    StepRows[index / 10][index % 10]
  }

  /** `index_table`: how each code moves the step index. */
  const IndexTable: seq<int> := [-1, -1, -1, -1, 2, 4, 6, 8, -1, -1, -1, -1, 2, 4, 6, 8]

  /** The largest valid step index. */
  const MaxIndex := 88

  /** The decoder state of one channel: `predictor[chn]` and `index[chn]`. */
  datatype Channel = Channel(predictor: int, index: int) {
    predicate Valid() {
      -0x8000 <= predictor < 0x8000 && 0 <= index <= MaxIndex
    }
  }

  /** A channel state the decoder can continue from. */
  type State = c: Channel | c.Valid() witness Channel(0, 0)

  /** One 4-bit code. */
  type Code = x: int | 0 <= x < 16

  /** The new step index, clamped to the table. */
  function ClampIndex(x: int): (r: int)
    ensures 0 <= r <= MaxIndex
    ensures 0 <= x <= MaxIndex ==> r == x
  {
    if x < 0 then 0 else if x > MaxIndex then MaxIndex else x
  }

  // ---------------------------------------------------------------------
  // One code
  // ---------------------------------------------------------------------

  /** The size of the predictor change in the branchless form the loader
      runs: bit 2 of the code selects `step`, bit 1 `step >> 1`, bit 0
      `step >> 2`, and `step >> 3` is always added. */
  function Magnitude(step: nat, nibble: int): nat
    requires 0 <= nibble < 16
  {
    var delta := nibble % 8;
    (if delta >= 4 then step else 0) + (if delta % 4 >= 2 then step / 2 else 0)
    + (if delta % 2 == 1 then step / 4 else 0) + step / 8
  }

  /** The difference of the commented-out reference decoder, accumulated
      in an `int16_t`, so each addition is truncated to 16 bits. */
  function ReferenceDiff(step: nat, nibble: int): int
    requires 0 <= nibble < 16
  {
    var delta := nibble % 8;
    var diff0 := step / 8;
    var diff1 := if delta >= 4 then Wrap16(diff0 + step) else diff0;
    var diff2 := if delta % 4 >= 2 then Wrap16(diff1 + step / 2) else diff1;
    if delta % 2 == 1 then Wrap16(diff2 + step / 4) else diff2
  }

  /** The reference decoder's new predictor: subtract the difference when
      the sign bit (bit 3) is set, add it otherwise. */
  function ReferencePredictor(predictor: int, step: nat, nibble: int): int
    requires 0 <= nibble < 16
  {
    var diff := ReferenceDiff(step, nibble);
    Wrap16(if nibble >= 8 then predictor - diff else predictor + diff)
  }

  /** The branchless update: `predictor + (-1 + ((nibble & 8) == 0) * 2) *
      Magnitude`, stored back into the `int16_t` predictor. */
  function BranchlessPredictor(predictor: int, step: nat, nibble: int): (r: int)
    requires 0 <= nibble < 16
    ensures -0x8000 <= r < 0x8000
    ensures nibble < 8 ==> (r - predictor - Magnitude(step, nibble)) % TwoTo16 == 0
    ensures nibble >= 8 ==> (r - predictor + Magnitude(step, nibble)) % TwoTo16 == 0
  {
    Wrap16(predictor + (-1 + (if nibble < 8 then 1 else 0) * 2) * Magnitude(step, nibble))
  }

  /** The truncated running difference agrees with the exact one modulo
      2^16. */
  lemma ReferenceDiffCongruent(step: nat, nibble: int)
    requires 0 <= nibble < 16
    ensures (ReferenceDiff(step, nibble) - Magnitude(step, nibble)) % TwoTo16 == 0
  {
    var delta := nibble % 8;
    var diff0 := step / 8;
    var diff1 := if delta >= 4 then Wrap16(diff0 + step) else diff0;
    var exact1 := diff0 + (if delta >= 4 then step else 0);
    if delta >= 4 {
      AddTruncated(diff0, diff0, step);
    }
    var diff2 := if delta % 4 >= 2 then Wrap16(diff1 + step / 2) else diff1;
    var exact2 := exact1 + (if delta % 4 >= 2 then step / 2 else 0);
    if delta % 4 >= 2 {
      AddTruncated(diff1, exact1, step / 2);
    }
    var diff3 := if delta % 2 == 1 then Wrap16(diff2 + step / 4) else diff2;
    var exact3 := exact2 + (if delta % 2 == 1 then step / 4 else 0);
    if delta % 2 == 1 {
      AddTruncated(diff2, exact2, step / 4);
    }
    assert diff3 == ReferenceDiff(step, nibble);
    assert exact3 == Magnitude(step, nibble);
  }

  /** Truncating a running sum to 16 bits keeps it congruent to the exact
      sum. */
  lemma AddTruncated(diff: int, exact: int, add: int)
    requires (diff - exact) % TwoTo16 == 0
    ensures (Wrap16(diff + add) - (exact + add)) % TwoTo16 == 0
  {
    ModSum(Wrap16(diff + add) - (diff + add), diff - exact);
  }

  /** The loader's branchless update computes what the reference decoder
      does, including the 16-bit truncations of its running difference. */
  lemma BranchlessIsReference(predictor: int, step: nat, nibble: int)
    requires 0 <= nibble < 16
    ensures BranchlessPredictor(predictor, step, nibble) == ReferencePredictor(predictor, step, nibble)
  {
    var m: int := Magnitude(step, nibble);
    var diff := ReferenceDiff(step, nibble);
    ReferenceDiffCongruent(step, nibble);
    Wrap16Congruent(diff, m);
    Wrap16Absorb(predictor, diff);
    Wrap16Absorb(predictor, m);
    if nibble < 8 {
      assert (-1 + (if nibble < 8 then 1 else 0) * 2) * m == m;
      assert ReferencePredictor(predictor, step, nibble) == Wrap16(predictor + diff);
    } else {
      assert (-1 + (if nibble < 8 then 1 else 0) * 2) * m == -m;
      assert ReferencePredictor(predictor, step, nibble) == Wrap16(predictor - diff);
    }
  }

  lemma ModSum(x: int, y: int)
    requires x % TwoTo16 == 0 && y % TwoTo16 == 0
    ensures (x + y) % TwoTo16 == 0
  {
  }

  /** One code of one channel, as the loader decodes it. */
  function DecodeNibble(c: State, nibble: Code): (r: State)
    ensures r.index == ClampIndex(c.index + IndexTable[nibble])
    ensures r.predictor == ReferencePredictor(c.predictor, StepTable(c.index), nibble)
  {
    BranchlessIsReference(c.predictor, StepTable(c.index), nibble);
    Channel(BranchlessPredictor(c.predictor, StepTable(c.index), nibble), ClampIndex(c.index + IndexTable[nibble]))
  }

  /** A larger code (sign bit aside) never moves the predictor less. */
  lemma MagnitudeMonotone(step: nat, x: int, y: int)
    requires 0 <= x <= y < 8
    ensures Magnitude(step, x) <= Magnitude(step, y)
    ensures Magnitude(step, y) <= 2 * step
  {
  }

  /** Codes `x` and `x + 8` differ only in the sign bit: they move the step
      index alike and the predictor by opposite amounts. */
  lemma SignBitMirrors(c: State, x: Code)
    requires x < 8
    ensures DecodeNibble(c, x).index == DecodeNibble(c, x + 8).index
    ensures Wrap16(DecodeNibble(c, x).predictor + DecodeNibble(c, x + 8).predictor) == Wrap16(2 * c.predictor)
  {
    assert IndexTable[x] == IndexTable[x + 8];
    MirroredPredictors(c.predictor, StepTable(c.index), x);
  }

  lemma MirroredPredictors(predictor: int, step: nat, x: int)
    requires 0 <= x < 8
    ensures Wrap16(BranchlessPredictor(predictor, step, x) + BranchlessPredictor(predictor, step, x + 8)) == Wrap16(2 * predictor)
  {
    var m: int := Magnitude(step, x);
    assert Magnitude(step, x + 8) == m;
    var up := BranchlessPredictor(predictor, step, x);
    var down := BranchlessPredictor(predictor, step, x + 8);
    assert (-1 + (if x + 8 < 8 then 1 else 0) * 2) * m == -m;
    assert up == Wrap16(predictor + m);
    assert down == Wrap16(predictor - m);
    ModSum(up - (predictor + m), down - (predictor - m));
    Wrap16Congruent(up + down, 2 * predictor);
  }

  /** From silence with the smallest step, code 0 stays at silence: the
      step 7 shifted right by three is 0. */
  lemma ZeroCodeFromSilence()
    ensures DecodeNibble(Channel(0, 0), 0) == Channel(0, 0)
    ensures DecodeNibble(Channel(0, 0), 8) == Channel(0, 0)
  {
    assert StepTable(0) == 7;
    assert IndexTable[0] == -1;
    assert IndexTable[8] == -1;
    assert Magnitude(7, 0) == 0 && Magnitude(7, 8) == 0;
    assert BranchlessPredictor(0, 7, 0) == Wrap16(0) == 0;
    assert BranchlessPredictor(0, 7, 8) == Wrap16(0) == 0;
  }


  // ---------------------------------------------------------------------
  // Runs of codes
  // ---------------------------------------------------------------------

  /** A state after a run of steps, and the value written after each step. */
  datatype Run<S> = Run(state: S, samples: seq<int>)

  /** Applies `step` to each of `xs` in turn from `s`, writing `out` of
      every new state: the shape of the decoder's inner `q` loop. */
  function Scan<S, X>(step: (S, X) -> S, out: S -> int, s: S, xs: seq<X>): (r: Run<S>)
    ensures |r.samples| == |xs|
    ensures |xs| == 0 ==> r.state == s
    ensures |xs| > 0 ==> r.samples[|xs| - 1] == out(r.state)
    ensures |xs| == 1 ==> r == Run(step(s, xs[0]), [out(step(s, xs[0]))])
    decreases |xs|
  {
    if |xs| == 0 then Run(s, [])
    else
      var next := step(s, xs[0]);
      var rest := Scan(step, out, next, xs[1..]);
      Run(rest.state, [out(next)] + rest.samples)
  }

  /** Scanning in two pieces, the second from the state the first leaves,
      is scanning in one piece. */
  lemma {:induction false} ScanAppend<S, X>(step: (S, X) -> S, out: S -> int, s: S, a: seq<X>, b: seq<X>)
    ensures Scan(step, out, s, a + b).samples
         == Scan(step, out, s, a).samples + Scan(step, out, Scan(step, out, s, a).state, b).samples
    ensures Scan(step, out, s, a + b).state == Scan(step, out, Scan(step, out, s, a).state, b).state
    decreases |a|
  {
    if |a| == 0 {
      assert a + b == b;
    } else {
      var next := step(s, a[0]);
      assert (a + b)[0] == a[0] && (a + b)[1..] == a[1..] + b;
      ScanAppend(step, out, next, a[1..], b);
      var tail := Scan(step, out, next, a[1..]);
      var second := Scan(step, out, tail.state, b);
      assert [out(next)] + (tail.samples + second.samples) == ([out(next)] + tail.samples) + second.samples;
    }
  }

  function Predictor(c: State): int {
    c.predictor
  }

  /** Decoding a channel's codes: every code updates the state and writes
      the new predictor as the next sample of that channel. */
  function DecodeRun(c: State, codes: seq<Code>): (r: Run<State>)
    ensures |r.samples| == |codes|
    ensures |codes| > 0 ==> r.samples[|codes| - 1] == r.state.predictor
  {
    Scan(DecodeNibble, Predictor, c, codes)
  }

  /** One more code: the run's state is `DecodeNibble` of the state the
      shorter run leaves, and its new sample is that state's predictor. */
  lemma DecodeRunStep(c: State, codes: seq<Code>, code: Code)
    ensures var before := DecodeRun(c, codes);
      DecodeRun(c, codes + [code]) == Run(DecodeNibble(before.state, code), before.samples + [DecodeNibble(before.state, code).predictor])
  {
    ScanAppend(DecodeNibble, Predictor, c, codes, [code]);
  }

  /** A per-code channel update; the loader's is `DecodeNibble`. The
      block structure below is stated for any update. */
  type Decoder = (State, Code) -> State

  /** The codes of a byte sequence in the order the loader reads them:
      `*d & 0xf` on even steps, `*d++ >> 4` on odd ones. */
  function Nibbles(s: seq<byte>): (r: seq<Code>)
    ensures |r| == 2 * |s|
  {
    if |s| == 0 then [] else [CodeOf(s[0], false), CodeOf(s[0], true)] + Nibbles(s[1..])
  }

  /** The low (`*d & 0xf`) or high (`*d >> 4`) half of a byte. */
  function CodeOf(b: byte, high: bool): Code {
    if high then b / 16 else b % 16
  }

  /** Two consecutive codes put back together give the byte they came from. */
  lemma {:induction false} NibblesPack(s: seq<byte>, k: int)
    requires 0 <= k < |s|
    ensures Nibbles(s)[2 * k] == s[k] % 16 && Nibbles(s)[2 * k + 1] == s[k] / 16
    ensures s[k] == Nibbles(s)[2 * k] as int + 16 * (Nibbles(s)[2 * k + 1] as int)
    decreases k
  {
    if k > 0 {
      NibblesPack(s[1..], k - 1);
    }
  }

  lemma {:induction false} NibblesAppend(a: seq<byte>, b: seq<byte>)
    ensures Nibbles(a + b) == Nibbles(a) + Nibbles(b)
    decreases |a|
  {
    if |a| == 0 {
      assert a + b == b;
    } else {
      assert (a + b)[0] == a[0] && (a + b)[1..] == a[1..] + b;
      NibblesAppend(a[1..], b);
    }
  }

  // ---------------------------------------------------------------------
  // Groups
  // ---------------------------------------------------------------------

  /** The number of passes of `for (j = start; j < blockAlign; j += 4 * n)`. */
  function Groups(start: nat, blockAlign: nat, n: nat): nat
    requires 1 <= n
    decreases blockAlign - start
  {
    if start >= blockAlign then 0 else 1 + Groups(start + 4 * n, blockAlign, n)
  }

  /** The closed form of the pass count. */
  lemma {:induction false} GroupsCount(start: nat, blockAlign: nat, n: nat)
    requires 1 <= n <= 2
    ensures Groups(start, blockAlign, n) == if start >= blockAlign then 0 else (blockAlign - start - 1) / (4 * n) + 1
    decreases blockAlign - start
  {
    if start < blockAlign {
      GroupsCount(start + 4 * n, blockAlign, n);
      if n == 1 {
        assert (blockAlign - start - 1) / 4 == if start + 4 >= blockAlign then 0 else (blockAlign - start - 5) / 4 + 1;
      } else {
        assert (blockAlign - start - 1) / 8 == if start + 8 >= blockAlign then 0 else (blockAlign - start - 9) / 8 + 1;
      }
    }
  }

  /** The bytes of `count` groups of `n` channels, four bytes each:
      `4 * n * count`, spelled out for the one- and two-channel cases so
      that it stays linear. */
  function Span(n: nat, count: nat): nat
    requires 1 <= n <= 2
  {
    if n == 1 then 4 * count else 8 * count
  }

  /** The channel `i % n` and the per-channel sample number `i / n` of
      interleaved position `i`, spelled out for one and two channels. */
  function Lane(i: nat, n: nat): nat
    requires 1 <= n <= 2
  {
    if n == 1 then 0 else i % 2
  }

  function Slot(i: nat, n: nat): nat
    requires 1 <= n <= 2
  {
    if n == 1 then i else i / 2
  }

  /** Samples and states after decoding groups for every channel. */
  datatype Decoded = Decoded(states: seq<State>, samples: seq<int>)

  /** Channel `k`'s run over its four bytes of the group at `d`. */
  function GroupRun(dec: Decoder, mem: seq<byte>, d: nat, n: nat, states: seq<State>, k: nat): (r: Run<State>)
    requires 1 <= n <= 2 && |states| == n && d + 4 * n <= |mem| && k < n
    ensures |r.samples| == 8
  {
    Scan(dec, Predictor, states[k], Nibbles(mem[d + 4 * k..d + 4 * k + 4]))
  }

  lemma InterleaveBound(i: nat, n: nat)
    requires 1 <= n <= 2 && i < 8 * n
    ensures Lane(i, n) < n && Slot(i, n) < 8
  {
    if n == 1 {} else {}
  }

  /** The `i`-th interleaved sample of a group: `*ptr_ch` with
      `ptr_ch = ptr + chn + q * n`. */
  function GroupSample(dec: Decoder, mem: seq<byte>, d: nat, n: nat, states: seq<State>, i: nat): int
    requires 1 <= n <= 2 && |states| == n && d + 4 * n <= |mem| && i < 8 * n
  {
    InterleaveBound(i, n);
    GroupRun(dec, mem, d, n, states, Lane(i, n)).samples[Slot(i, n)]
  }

  /** One pass of the `j` loop: channel `k` decodes the four bytes at
      `d + 4 * k` and writes its eight samples `n` apart from `k` on. */
  function DecodeGroup(dec: Decoder, mem: seq<byte>, d: nat, n: nat, states: seq<State>): (r: Decoded)
    requires 1 <= n <= 2 && |states| == n && d + 4 * n <= |mem|
    ensures |r.states| == n && |r.samples| == 8 * n
  {
    Decoded(seq(n, k requires 0 <= k < n => GroupRun(dec, mem, d, n, states, k).state),
            seq(8 * n, i requires 0 <= i < 8 * n => GroupSample(dec, mem, d, n, states, i)))
  }

  /** What one pass leaves: each channel in the state its four bytes lead
      to, and each sample where `GroupSample` places it. */
  lemma DecodeGroupParts(dec: Decoder, mem: seq<byte>, d: nat, n: nat, states: seq<State>)
    requires 1 <= n <= 2 && |states| == n && d + 4 * n <= |mem|
    ensures var r := DecodeGroup(dec, mem, d, n, states);
      && (forall k :: 0 <= k < n ==> r.states[k] == GroupRun(dec, mem, d, n, states, k).state)
      && (forall i :: 0 <= i < |r.samples| ==> r.samples[i] == GroupSample(dec, mem, d, n, states, i))
  {
  }

  /** The `j` loop of one block, from pass position `j`; `d` follows the
      bytes read. */
  function DecodeGroups(dec: Decoder, mem: seq<byte>, d: nat, j: nat, blockAlign: nat, n: nat, states: seq<State>): (r: Decoded)
    requires 1 <= n <= 2 && |states| == n
    requires d + Span(n, Groups(j, blockAlign, n)) <= |mem|
    ensures |r.states| == n && |r.samples| == 2 * Span(n, Groups(j, blockAlign, n))
    decreases blockAlign - j
  {
    if j >= blockAlign then Decoded(states, [])
    else
      var group := DecodeGroup(dec, mem, d, n, states);
      var rest := DecodeGroups(dec, mem, d + 4 * n, j + 4 * n, blockAlign, n, group.states);
      Decoded(rest.states, group.samples + rest.samples)
  }

  /** One step of the `j` loop: the first group, then the rest. */
  lemma DecodeGroupsUnfold(dec: Decoder, mem: seq<byte>, d: nat, j: nat, blockAlign: nat, n: nat, states: seq<State>)
    requires 1 <= n <= 2 && |states| == n && j < blockAlign
    requires d + Span(n, Groups(j, blockAlign, n)) <= |mem|
    ensures var group := DecodeGroup(dec, mem, d, n, states);
      var rest := DecodeGroups(dec, mem, d + 4 * n, j + 4 * n, blockAlign, n, group.states);
      DecodeGroups(dec, mem, d, j, blockAlign, n, states) == Decoded(rest.states, group.samples + rest.samples)
  {
  }

  /** The four bytes of each of `count` groups from `d` that belong to
      channel `k` of `n`, in stream order. */
  function ChannelBytes(mem: seq<byte>, d: nat, n: nat, k: nat, count: nat): (r: seq<byte>)
    requires 1 <= n <= 2 && k < n && d + Span(n, count) <= |mem|
    ensures |r| == 4 * count
    decreases count
  {
    if count == 0 then []
    else mem[d + 4 * k..d + 4 * k + 4] + ChannelBytes(mem, d + 4 * n, n, k, count - 1)
  }

  /** Per-channel reference, states: after the `j` loop each channel is in
      the state its own code stream leads to. */
  lemma {:induction false} GroupStatesByChannel(dec: Decoder, mem: seq<byte>, d: nat, j: nat, blockAlign: nat, n: nat, states: seq<State>)
    requires 1 <= n <= 2 && |states| == n
    requires d + Span(n, Groups(j, blockAlign, n)) <= |mem|
    ensures forall k :: 0 <= k < n ==>
      DecodeGroups(dec, mem, d, j, blockAlign, n, states).states[k]
        == ChannelRun(dec, mem, d, n, Groups(j, blockAlign, n), states, k).state
    decreases blockAlign - j
  {
    var count := Groups(j, blockAlign, n);
    if j < blockAlign {
      var tail := Groups(j + 4 * n, blockAlign, n);
      assert count == tail + 1;
      var later := DecodeGroup(dec, mem, d, n, states).states;
      DecodeGroupParts(dec, mem, d, n, states);
      GroupStatesByChannel(dec, mem, d + 4 * n, j + 4 * n, blockAlign, n, later);
      forall k | 0 <= k < n
        ensures ChannelRun(dec, mem, d, n, count, states, k).state
             == ChannelRun(dec, mem, d + 4 * n, n, tail, later, k).state
      {
        ChannelSplit(dec, mem, d, n, count, tail, states, later, k);
      }
    } else {
      forall k | 0 <= k < n
        ensures states[k] == ChannelRun(dec, mem, d, n, count, states, k).state
      {
        assert Nibbles(ChannelBytes(mem, d, n, k, count)) == [];
      }
    }
  }

  /** Per-channel reference, samples: the interleaved output of the `j`
      loop holds sample `i / n` of channel `i % n` at position `i`, where
      each channel's samples are the decoding of its own code stream. */
  lemma GroupSamplesByChannel(dec: Decoder, mem: seq<byte>, d: nat, j: nat, blockAlign: nat, n: nat, states: seq<State>)
    requires 1 <= n <= 2 && |states| == n
    requires d + Span(n, Groups(j, blockAlign, n)) <= |mem|
    ensures var r := DecodeGroups(dec, mem, d, j, blockAlign, n, states);
      forall i :: 0 <= i < |r.samples| ==>
        r.samples[i] == ChannelSample(dec, mem, d, n, Groups(j, blockAlign, n), states, i)
  {
    var count := Groups(j, blockAlign, n);
    var r := DecodeGroups(dec, mem, d, j, blockAlign, n, states);
    var runs := ChannelRuns(dec, mem, d, n, count, states);
    GroupsInterleaveChannels(dec, mem, d, j, blockAlign, n, states);
    forall i | 0 <= i < |r.samples|
      ensures r.samples[i] == ChannelSample(dec, mem, d, n, count, states, i)
    {
      ChannelBound(i, n, count);
      InterleaveAt(runs, 8 * count, i);
    }
  }

  /** The samples of `n` equally long runs, interleaved: position `i` holds
      sample `i / n` of run `i % n`. */
  function Interleave(runs: seq<seq<int>>, len: nat): (r: seq<int>)
    requires 1 <= |runs| <= 2 && forall k :: 0 <= k < |runs| ==> |runs[k]| == len
    ensures |r| == (if |runs| == 1 then len else 2 * len)
  {
    if |runs| == 1 then runs[0] else seq(2 * len, i requires 0 <= i < 2 * len => runs[i % 2][i / 2])
  }

  lemma InterleaveAt(runs: seq<seq<int>>, len: nat, i: nat)
    requires 1 <= |runs| <= 2 && forall k :: 0 <= k < |runs| ==> |runs[k]| == len
    requires i < |Interleave(runs, len)|
    ensures Lane(i, |runs|) < |runs| && Slot(i, |runs|) < len
    ensures Interleave(runs, len)[i] == runs[Lane(i, |runs|)][Slot(i, |runs|)]
  {
  }

  /** Each run of `a` followed by the same run of `b`. */
  function Zip(a: seq<seq<int>>, b: seq<seq<int>>): (r: seq<seq<int>>)
    requires |a| == |b|
    ensures |r| == |a| && forall k :: 0 <= k < |a| ==> r[k] == a[k] + b[k]
  {
    seq(|a|, k requires 0 <= k < |a| => a[k] + b[k])
  }

  /** Interleaving runs made of two pieces is interleaving the first
      pieces, then the second. */
  lemma InterleaveAppend(a: seq<seq<int>>, b: seq<seq<int>>, la: nat, lb: nat)
    requires 1 <= |a| <= 2 && |b| == |a|
    requires forall k :: 0 <= k < |a| ==> |a[k]| == la && |b[k]| == lb
    ensures Interleave(Zip(a, b), la + lb) == Interleave(a, la) + Interleave(b, lb)
  {
    var n := |a|;
    var z := Zip(a, b);
    var l := Interleave(z, la + lb);
    var x := Interleave(a, la);
    var y := Interleave(b, lb);
    forall i | 0 <= i < |l|
      ensures l[i] == (x + y)[i]
    {
      InterleaveAt(z, la + lb, i);
      if i < |x| {
        InterleaveAt(a, la, i);
      } else {
        var i' := i - |x|;
        InterleaveAt(b, lb, i');
        assert Lane(i', n) == Lane(i, n) && Slot(i', n) == Slot(i, n) - la;
      }
    }
  }

  /** Channel `k`'s four-byte runs for each channel of one group. */
  function GroupRuns(dec: Decoder, mem: seq<byte>, d: nat, n: nat, states: seq<State>): (r: seq<seq<int>>)
    requires 1 <= n <= 2 && |states| == n && d + 4 * n <= |mem|
    ensures |r| == n && forall k :: 0 <= k < n ==> r[k] == GroupRun(dec, mem, d, n, states, k).samples
  {
    seq(n, k requires 0 <= k < n => GroupRun(dec, mem, d, n, states, k).samples)
  }

  /** The per-channel reference runs of `count` groups. */
  function ChannelRuns(dec: Decoder, mem: seq<byte>, d: nat, n: nat, count: nat, states: seq<State>): (r: seq<seq<int>>)
    requires 1 <= n <= 2 && |states| == n && d + Span(n, count) <= |mem|
    ensures |r| == n && forall k :: 0 <= k < n ==> r[k] == ChannelRun(dec, mem, d, n, count, states, k).samples
  {
    seq(n, k requires 0 <= k < n => ChannelRun(dec, mem, d, n, count, states, k).samples)
  }

  /** One pass writes its channels' eight samples interleaved. */
  lemma GroupIsInterleave(dec: Decoder, mem: seq<byte>, d: nat, n: nat, states: seq<State>)
    requires 1 <= n <= 2 && |states| == n && d + 4 * n <= |mem|
    ensures DecodeGroup(dec, mem, d, n, states).samples == Interleave(GroupRuns(dec, mem, d, n, states), 8)
  {
    var runs := GroupRuns(dec, mem, d, n, states);
    DecodeGroupParts(dec, mem, d, n, states);
    forall i | 0 <= i < 8 * n
      ensures DecodeGroup(dec, mem, d, n, states).samples[i] == Interleave(runs, 8)[i]
    {
      InterleaveAt(runs, 8, i);
    }
  }

  /** The `j` loop's output is the interleaving of the channels' own
      decodings of their code streams. */
  lemma {:induction false} GroupsInterleaveChannels(dec: Decoder, mem: seq<byte>, d: nat, j: nat, blockAlign: nat, n: nat, states: seq<State>)
    requires 1 <= n <= 2 && |states| == n
    requires d + Span(n, Groups(j, blockAlign, n)) <= |mem|
    ensures DecodeGroups(dec, mem, d, j, blockAlign, n, states).samples
         == Interleave(ChannelRuns(dec, mem, d, n, Groups(j, blockAlign, n), states), 8 * Groups(j, blockAlign, n))
    decreases blockAlign - j
  {
    var count := Groups(j, blockAlign, n);
    if j < blockAlign {
      var tail := Groups(j + 4 * n, blockAlign, n);
      assert count == tail + 1;
      var group := DecodeGroup(dec, mem, d, n, states);
      var later := group.states;
      DecodeGroupsUnfold(dec, mem, d, j, blockAlign, n, states);
      ChannelRunsSplit(dec, mem, d, n, count, tail, states, later);
      GroupIsInterleave(dec, mem, d, n, states);
      GroupsInterleaveChannels(dec, mem, d + 4 * n, j + 4 * n, blockAlign, n, later);
      InterleaveStep(DecodeGroups(dec, mem, d, j, blockAlign, n, states).samples, group.samples,
                     DecodeGroups(dec, mem, d + 4 * n, j + 4 * n, blockAlign, n, later).samples,
                     GroupRuns(dec, mem, d, n, states), ChannelRuns(dec, mem, d + 4 * n, n, tail, later),
                     ChannelRuns(dec, mem, d, n, count, states), tail);
    } else {
      var runs := ChannelRuns(dec, mem, d, n, count, states);
      assert Interleave(runs, 0) == [];
    }
  }

  /** The inductive step on plain sequences: a first group interleaved,
      followed by the rest interleaved, is the whole interleaved. */
  lemma InterleaveStep(all: seq<int>, group: seq<int>, rest: seq<int>,
                       firstRuns: seq<seq<int>>, restRuns: seq<seq<int>>, allRuns: seq<seq<int>>, tail: nat)
    requires 1 <= |firstRuns| <= 2 && |restRuns| == |firstRuns|
    requires forall k :: 0 <= k < |firstRuns| ==> |firstRuns[k]| == 8 && |restRuns[k]| == 8 * tail
    requires all == group + rest && allRuns == Zip(firstRuns, restRuns)
    requires group == Interleave(firstRuns, 8) && rest == Interleave(restRuns, 8 * tail)
    ensures all == Interleave(allRuns, 8 * (tail + 1))
  {
    InterleaveAppend(firstRuns, restRuns, 8, 8 * tail);
    assert 8 + 8 * tail == 8 * (tail + 1);
  }

  /** The per-channel runs over `count` groups are the runs over the first
      group followed by the runs over the rest. */
  lemma ChannelRunsSplit(dec: Decoder, mem: seq<byte>, d: nat, n: nat, count: nat, tail: nat, states: seq<State>, later: seq<State>)
    requires 1 <= n <= 2 && |states| == n && count == tail + 1 && d + Span(n, count) <= |mem|
    requires later == DecodeGroup(dec, mem, d, n, states).states
    ensures d + 4 * n + Span(n, tail) <= |mem|
    ensures ChannelRuns(dec, mem, d, n, count, states)
         == Zip(GroupRuns(dec, mem, d, n, states), ChannelRuns(dec, mem, d + 4 * n, n, tail, later))
  {
    assert Span(n, count) == 4 * n + Span(n, tail) by {
      if n == 1 {} else {}
    }
    DecodeGroupParts(dec, mem, d, n, states);
    forall k | 0 <= k < n
      ensures ChannelRun(dec, mem, d, n, count, states, k).samples
           == GroupRun(dec, mem, d, n, states, k).samples + ChannelRun(dec, mem, d + 4 * n, n, tail, later, k).samples
    {
      ChannelSplit(dec, mem, d, n, count, tail, states, later, k);
    }
  }

  /** Channel `k`'s run over its code stream in `count` groups from `d`. */
  function ChannelRun(dec: Decoder, mem: seq<byte>, d: nat, n: nat, count: nat, states: seq<State>, k: nat): (r: Run<State>)
    requires 1 <= n <= 2 && |states| == n && k < n && d + Span(n, count) <= |mem|
    ensures |r.samples| == 8 * count
  {
    Scan(dec, Predictor, states[k], Nibbles(ChannelBytes(mem, d, n, k, count)))
  }

  /** The reference value of interleaved position `i`: sample `i / n` of
      channel `i % n`. */
  function ChannelSample(dec: Decoder, mem: seq<byte>, d: nat, n: nat, count: nat, states: seq<State>, i: nat): int
    requires 1 <= n <= 2 && |states| == n && d + Span(n, count) <= |mem| && i < 2 * Span(n, count)
  {
    ChannelBound(i, n, count);
    ChannelRun(dec, mem, d, n, count, states, Lane(i, n)).samples[Slot(i, n)]
  }

  lemma ChannelBound(i: nat, n: nat, count: nat)
    requires 1 <= n <= 2 && i < 2 * Span(n, count)
    ensures Lane(i, n) < n && Slot(i, n) < 8 * count
  {
    if n == 1 {} else {}
  }

  /** A channel's run over `count` groups is its run over the first group
      followed by its run over the rest. */
  lemma ChannelSplit(dec: Decoder, mem: seq<byte>, d: nat, n: nat, count: nat, tail: nat, states: seq<State>, later: seq<State>, k: nat)
    requires 1 <= n <= 2 && |states| == n && |later| == n && k < n && count == tail + 1 && d + Span(n, count) <= |mem|
    requires later[k] == GroupRun(dec, mem, d, n, states, k).state
    ensures d + 4 * n + Span(n, tail) <= |mem|
    ensures ChannelRun(dec, mem, d, n, count, states, k)
        == Run(ChannelRun(dec, mem, d + 4 * n, n, tail, later, k).state,
               GroupRun(dec, mem, d, n, states, k).samples + ChannelRun(dec, mem, d + 4 * n, n, tail, later, k).samples)
  {
    assert Span(n, count) == 4 * n + Span(n, tail) by {
      if n == 1 {} else {}
    }
    var here := mem[d + 4 * k..d + 4 * k + 4];
    var there := ChannelBytes(mem, d + 4 * n, n, k, tail);
    assert ChannelBytes(mem, d, n, k, count) == here + there;
    NibblesAppend(here, there);
    ScanAppend(dec, Predictor, states[k], Nibbles(here), Nibbles(there));
  }


  // ---------------------------------------------------------------------
  // Blocks
  // ---------------------------------------------------------------------

  /** Channel `k`'s preamble at `d`: `predictor[chn] = *d++;
      predictor[chn] |= *d++ << 8` stores the little-endian word into an
      `int16_t`, then `index[chn] = *d++`, and one byte is skipped. */
  function PreambleChannel(mem: seq<byte>, d: nat, k: nat): (r: Channel)
    requires d + 4 * k + 4 <= |mem|
    ensures -0x8000 <= r.predictor < 0x8000 && 0 <= r.index < 256
  {
    Channel(Wrap16(LE16(mem, d + 4 * k)), mem[d + 4 * k + 2])
  }

  /** Every channel's step index is inside `step_table`. */
  predicate PreambleValid(mem: seq<byte>, d: nat, n: nat)
    requires d + 4 * n <= |mem|
  {
    forall k :: 0 <= k < n ==> PreambleChannel(mem, d, k).index <= MaxIndex
  }

  function Preamble(mem: seq<byte>, d: nat, n: nat): (r: seq<State>)
    requires d + 4 * n <= |mem| && PreambleValid(mem, d, n)
    ensures |r| == n
  {
    seq(n, k requires 0 <= k < n => PreambleChannel(mem, d, k))
  }

  /** The bytes one block consumes: the preamble, then four bytes per
      channel for every pass of the `j` loop. The pointer `d` is never
      reset to a block boundary, so this, not `blockAlign`, is where the
      next block starts. */
  function BlockBytes(n: nat, blockAlign: nat): nat
    requires 1 <= n <= 2
  {
    4 * n + Span(n, Groups(4 * n, blockAlign, n))
  }

  /** The samples one block writes: eight per channel per pass. */
  function BlockSamples(n: nat, blockAlign: nat): nat
    requires 1 <= n <= 2
  {
    2 * Span(n, Groups(4 * n, blockAlign, n))
  }

  /** One iteration of the `i` loop, reading from `d`. A read past the end
      of the image, or a step index outside `step_table` once a code is
      decoded, is undefined behaviour in the source; the model stops
      there. */
  function DecodeBlock(mem: seq<byte>, d: nat, n: nat, blockAlign: nat): (r: Result<seq<int>>)
    requires 1 <= n <= 2
    ensures r.Ok? <==> (d + BlockBytes(n, blockAlign) <= |mem|
                        && (Groups(4 * n, blockAlign, n) == 0 || PreambleValid(mem, d, n)))
    ensures r.Err? ==> r.error == (if d + BlockBytes(n, blockAlign) > |mem| then ReadsPastEnd else StepIndexOutOfRange)
    ensures r.Ok? ==> |r.value| == BlockSamples(n, blockAlign)
  {
    if d + BlockBytes(n, blockAlign) > |mem| then Err(ReadsPastEnd)
    else if Groups(4 * n, blockAlign, n) == 0 then Ok([])
    else if !PreambleValid(mem, d, n) then Err(StepIndexOutOfRange)
    else Ok(DecodeGroups(DecodeNibble, mem, d + 4 * n, 4 * n, blockAlign, n, Preamble(mem, d, n)).samples)
  }

  /** Per-channel reference for a block: interleaved position `i` holds
      sample `i / n` of channel `i % n` decoded on its own from its
      preamble state through its own four-byte pieces of the block. */
  lemma BlockByChannel(mem: seq<byte>, d: nat, n: nat, blockAlign: nat, i: nat)
    requires 1 <= n <= 2 && DecodeBlock(mem, d, n, blockAlign).Ok?
    requires i < |DecodeBlock(mem, d, n, blockAlign).value|
    ensures Lane(i, n) < n && PreambleChannel(mem, d, Lane(i, n)).Valid()
    ensures d + 4 * n + Span(n, Groups(4 * n, blockAlign, n)) <= |mem|
    ensures var codes := Nibbles(ChannelBytes(mem, d + 4 * n, n, Lane(i, n), Groups(4 * n, blockAlign, n)));
      Slot(i, n) < |codes| &&
      DecodeBlock(mem, d, n, blockAlign).value[i] == DecodeRun(PreambleChannel(mem, d, Lane(i, n)), codes).samples[Slot(i, n)]
  {
    var count := Groups(4 * n, blockAlign, n);
    ChannelBound(i, n, count);
    var states := Preamble(mem, d, n);
    var k := Lane(i, n);
    var decoded := DecodeGroups(DecodeNibble, mem, d + 4 * n, 4 * n, blockAlign, n, states);
    assert DecodeBlock(mem, d, n, blockAlign).value == decoded.samples;
    GroupSamplesByChannel(DecodeNibble, mem, d + 4 * n, 4 * n, blockAlign, n, states);
    assert decoded.samples[i] == ChannelSample(DecodeNibble, mem, d + 4 * n, n, count, states, i);
    assert states[k] == PreambleChannel(mem, d, k);
  }

  /** The `i` loop over `blocks` blocks, each starting where the previous
      one stopped reading. */
  function DecodeBlocks(mem: seq<byte>, d: nat, n: nat, blockAlign: nat, blocks: nat): (r: Result<seq<int>>)
    requires 1 <= n <= 2
    ensures r.Ok? ==> |r.value| == blocks * BlockSamples(n, blockAlign)
    ensures r.Ok? && blocks > 0 ==> d + blocks * BlockBytes(n, blockAlign) <= |mem|
    ensures d + blocks * BlockBytes(n, blockAlign) <= |mem| ==> r.Ok? || r.error == StepIndexOutOfRange
    ensures r.Err? ==> r.error == ReadsPastEnd || r.error == StepIndexOutOfRange
    decreases blocks
  {
    if blocks == 0 then Ok([])
    else
      ProductStep(blocks, BlockBytes(n, blockAlign));
      var first :- DecodeBlock(mem, d, n, blockAlign);
      var rest :- DecodeBlocks(mem, d + BlockBytes(n, blockAlign), n, blockAlign, blocks - 1);
      ProductStep(blocks, BlockSamples(n, blockAlign));
      ProductStep(blocks, BlockBytes(n, blockAlign));
      Ok(first + rest)
  }

  /** Block `b` of the output is the decoding of the block that starts
      `b * BlockBytes` bytes after the first (`Stride` is that product, by
      `StrideIsProduct`). */
  lemma DecodeBlocksAt(mem: seq<byte>, d: nat, n: nat, blockAlign: nat, blocks: nat, b: nat)
    requires 1 <= n <= 2 && DecodeBlocks(mem, d, n, blockAlign, blocks).Ok?
    requires b < blocks
    ensures DecodeBlock(mem, d + Stride(b, BlockBytes(n, blockAlign)), n, blockAlign).Ok?
    ensures Stride(b, BlockSamples(n, blockAlign)) + BlockSamples(n, blockAlign) <= |DecodeBlocks(mem, d, n, blockAlign, blocks).value|
    ensures DecodeBlocks(mem, d, n, blockAlign, blocks).value[Stride(b, BlockSamples(n, blockAlign))..Stride(b, BlockSamples(n, blockAlign)) + BlockSamples(n, blockAlign)]
         == DecodeBlock(mem, d + Stride(b, BlockBytes(n, blockAlign)), n, blockAlign).value
  {
    var block := BlockDecoder(mem, n, blockAlign);
    DecodeBlocksIsRepeat(mem, d, n, blockAlign, blocks);
    RepeatSlice(block, d, BlockBytes(n, blockAlign), blocks, BlockSamples(n, blockAlign), b);
  }

  /** `DecodeBlock` as a function value, for `Repeat`. */
  function BlockDecoder(mem: seq<byte>, n: nat, blockAlign: nat): (r: nat -> Result<seq<int>>)
    requires 1 <= n <= 2
    ensures forall x :: r(x) == DecodeBlock(mem, x, n, blockAlign)
    ensures forall x :: r(x).Ok? ==> |r(x).value| == BlockSamples(n, blockAlign)
  {
    (x: nat) => DecodeBlock(mem, x, n, blockAlign)
  }

  /** `b * size`, as `b` repeated additions, so that the induction over
      blocks stays linear. */
  function Stride(b: nat, size: nat): nat {
    if b == 0 then 0 else size + Stride(b - 1, size)
  }

  lemma {:induction false} StrideIsProduct(b: nat, size: nat)
    ensures Stride(b, size) == b * size
  {
    if b > 0 {
      StrideIsProduct(b - 1, size);
      ProductStep(b, size);
    }
  }

  /** The shape of the `i` loop for any per-block decoder: `count` blocks,
      each starting `size` bytes after the previous one. */
  function Repeat(block: nat -> Result<seq<int>>, d: nat, size: nat, count: nat): Result<seq<int>>
    decreases count
  {
    if count == 0 then Ok([])
    else
      var first :- block(d);
      var rest :- Repeat(block, d + size, size, count - 1);
      Ok(first + rest)
  }

  /** Block `b` of a repeated decoding, when every block writes `samples`
      values. */
  lemma {:induction false} RepeatSlice(block: nat -> Result<seq<int>>, d: nat, size: nat, count: nat, samples: nat, b: nat)
    requires Repeat(block, d, size, count).Ok?
    requires forall x :: block(x).Ok? ==> |block(x).value| == samples
    requires b < count
    ensures block(d + Stride(b, size)).Ok?
    ensures Stride(b, samples) + samples <= |Repeat(block, d, size, count).value|
    ensures Repeat(block, d, size, count).value[Stride(b, samples)..Stride(b, samples) + samples] == block(d + Stride(b, size)).value
    decreases b
  {
    var first := block(d).value;
    var rest := Repeat(block, d + size, size, count - 1).value;
    var all := Repeat(block, d, size, count).value;
    assert all == first + rest;
    if b > 0 {
      RepeatSlice(block, d + size, size, count - 1, samples, b - 1);
      assert d + Stride(b, size) == d + size + Stride(b - 1, size);
      assert all[Stride(b, samples)..Stride(b, samples) + samples] == rest[Stride(b - 1, samples)..Stride(b - 1, samples) + samples];
    } else {
      assert all[..samples] == first;
    }
  }

  /** The block loop is `Repeat` of `DecodeBlock` with stride `BlockBytes`. */
  lemma {:induction false} DecodeBlocksIsRepeat(mem: seq<byte>, d: nat, n: nat, blockAlign: nat, blocks: nat)
    requires 1 <= n <= 2
    ensures DecodeBlocks(mem, d, n, blockAlign, blocks)
         == Repeat(BlockDecoder(mem, n, blockAlign), d, BlockBytes(n, blockAlign), blocks)
    decreases blocks
  {
    if blocks > 0 {
      DecodeBlocksIsRepeat(mem, d + BlockBytes(n, blockAlign), n, blockAlign, blocks - 1);
    }
  }

  /** A block consumes exactly `blockAlign` bytes iff its data part is a
      whole number of groups; otherwise it consumes more. */
  lemma BlockBytesExact(n: nat, blockAlign: nat)
    requires 1 <= n <= 2
    ensures blockAlign <= BlockBytes(n, blockAlign)
    ensures BlockBytes(n, blockAlign) == blockAlign <==> 4 * n <= blockAlign && (blockAlign - 4 * n) % (4 * n) == 0
  {
    GroupsCount(4 * n, blockAlign, n);
    var count := Groups(4 * n, blockAlign, n);
    if blockAlign > 4 * n {
      var x := blockAlign - 4 * n;
      if n == 1 {
        assert count == (x - 1) / 4 + 1;
        DivisionSteps(x, 4);
      } else {
        assert count == (x - 1) / 8 + 1;
        DivisionSteps(x, 8);
      }
    }
  }

  /** Rounding `x` up to whole groups of `m` bytes, for the two group
      sizes. */
  lemma DivisionSteps(x: nat, m: nat)
    requires 1 <= x && (m == 4 || m == 8)
    ensures x <= m * ((x - 1) / m + 1)
    ensures m * ((x - 1) / m + 1) == x <==> x % m == 0
  {
    var q := (x - 1) / m;
    var r := (x - 1) % m;
    if m == 4 {
      assert x == 4 * q + r + 1;
      if r == 3 {
        assert x == 4 * (q + 1);
      } else {
        assert x % 4 == r + 1;
      }
    } else {
      assert x == 8 * q + r + 1;
      if r == 7 {
        assert x == 8 * (q + 1);
      } else {
        assert x % 8 == r + 1;
      }
    }
  }

  lemma ProductStep(a: nat, b: nat)
    requires 1 <= a
    ensures a * b == b + (a - 1) * b && b <= a * b
  {
  }
}

=== FILE: loader.dfy ===
/** `alutLoadMemoryFromFileImage` (min_alut.h:90-366) end to end: parse the
    container, pick the OpenAL format tag, then convert the payload with the
    codec the container named. The host byte order and the largest request
    `malloc` grants are parameters; the caller's output pointers become the
    fields of `Loaded`.

    `Load` is the function as written. `LoadIntended` differs from it only
    where the source is evidently wrong (README, "Findings"): the `.snd`
    length, the format tag, and the IMA4 block size checks. */
module Loader {
  import opened Bytes
  import opened Audio
  import opened Container
  import opened Pcm
  import opened G711
  import opened Ima4

  /** The returned buffer: the caller's bytes (converted in place, or not at
      all), or a fresh array of `int16_t` samples. */
  datatype Payload = Raw(bytes: seq<byte>) | Samples(values: seq<int>)

  /** What the caller receives: `*format` (`None` when the switch left it
      unassigned), `*frequency`, the returned pointer's contents and
      `*size`. */
  datatype Loaded = Loaded(format: Option<AlFormat>, frequency: int, payload: Payload, size: int)

  /** The value an `ALsizei` (a 32-bit `int`) holds after a `size_t` is
      converted to it: the low 32 bits, read as two's complement. */
  function AlSizei(x: nat): (r: int)
    ensures -TwoTo31 <= r < TwoTo31
    ensures (r - x) % TwoTo32 == 0
    ensures x < TwoTo31 ==> r == x
  {
    Int32(x % TwoTo32)
  }

  /** The request `malloc(x == 0 ? 1 : x)`. */
  function Allocation(bytes: nat): (r: nat)
    ensures r >= 1 && (bytes > 0 ==> r == bytes)
  {
    if bytes == 0 then 1 else bytes
  }

  /** The payload window of the image, if it lies inside it. */
  function Window(buf: seq<byte>, offset: nat, length: nat): (r: Result<seq<byte>>)
    ensures r.Ok? <==> offset + length <= |buf|
    ensures r.Ok? ==> |r.value| == length && forall i :: 0 <= i < length ==> r.value[i] == buf[offset + i]
    ensures r.Err? ==> r.error == ReadsPastEnd
  {
    if offset + length <= |buf| then Ok(buf[offset..offset + length]) else Err(ReadsPastEnd)
  }

  // ---------------------------------------------------------------------
  // Codecs
  // ---------------------------------------------------------------------

  /** The mu-law and A-law cases: allocate two bytes per input byte, expand
      every byte, report `(ALsizei)length * 2` -- an `int` product that
      overflows for payloads of 2^30 bytes and more. */
  function DecodeLog(buf: seq<byte>, offset: nat, length: nat, alaw: bool, maxAlloc: nat): (r: Result<(Payload, int)>)
    ensures r.Ok? ==> offset + length <= |buf| && r.value.0.Samples? && |r.value.0.values| == length
    ensures r.Ok? ==> r.value.1 == 2 * AlSizei(length) && -TwoTo31 <= r.value.1 < TwoTo31
    ensures r.Ok? && length < TwoTo31 / 2 ==> r.value.1 == 2 * length
    ensures r.Ok? ==> forall i :: 0 <= i < length ==>
      r.value.0.values[i] == (if alaw then ALawSample(buf[offset + i]) else ULawSample(buf[offset + i]))
    ensures r.Ok? ==>
      r.value.0.values == if alaw then ALawDecode(buf[offset..offset + length]) else ULawDecode(buf[offset..offset + length])
    ensures r.Err? ==> r.error in {OutOfMemory, ReadsPastEnd, WritesPastAllocation, SignedOverflow}
    ensures r == Err(OutOfMemory) <==> Allocation(SizeT(length * 2)) > maxAlloc
    ensures r == Err(ReadsPastEnd) ==> offset + length > |buf|
    ensures r == Err(WritesPastAllocation) ==> 2 * length >= TwoTo64
    ensures r == Err(SignedOverflow) ==> length >= TwoTo31 / 2
  {
    var request := Allocation(SizeT(length * 2));
    if request > maxAlloc then Err(OutOfMemory)
    else
      var w :- Window(buf, offset, length);
      if 2 * length > request then Err(WritesPastAllocation)
      else
        var size := AlSizei(length);
        if !(-TwoTo31 <= 2 * size < TwoTo31) then Err(SignedOverflow)
        else
          Ok((Samples(if alaw then ALawDecode(w) else ULawDecode(w)), 2 * size))
  }

  /** `blocks = length / blockAlign`: the whole blocks of the payload. */
  function BlockCount(length: nat, blockAlign: nat): (r: nat)
    requires blockAlign > 0
    ensures r * blockAlign <= length < r * blockAlign + blockAlign
  {
    var q := length / blockAlign;
    assert q * blockAlign + length % blockAlign == length;
    q
  }

  /** Whether a block's data part is a whole number of groups, so that a
      block consumes exactly `blockAlign` bytes. */
  predicate Aligned(n: nat, blockAlign: nat)
    requires 1 <= n <= 2
  {
    4 * n <= blockAlign && (blockAlign - 4 * n) % (4 * n) == 0
  }

  /** The IMA4 case as written: `blocks = length / blockAlign`, an
      allocation of `(blockAlign - numChannels) * blocks * 4` bytes in
      `size_t` arithmetic, then the block loop, which writes
      `BlockSamples` samples of two bytes per block. */
  function DecodeIma4(buf: seq<byte>, offset: nat, length: nat, n: nat, blockAlign: nat, maxAlloc: nat): (r: Result<(Payload, int)>)
    requires 1 <= n <= 2
    ensures blockAlign == 0 <==> r == Err(DivisionByZero)
    ensures r.Ok? ==> (blockAlign > 0 && r.value.0.Samples?
                       && DecodeBlocks(buf, offset, n, blockAlign, BlockCount(length, blockAlign)).Ok?
                       && r.value.0.values == DecodeBlocks(buf, offset, n, blockAlign, BlockCount(length, blockAlign)).value
                       && r.value.1 == AlSizei(SizeT((blockAlign - n) * BlockCount(length, blockAlign) * 4))
                       && 2 * |r.value.0.values| <= Allocation(SizeT((blockAlign - n) * BlockCount(length, blockAlign) * 4)))
    ensures blockAlign > 0 ==>
      var blocks := BlockCount(length, blockAlign);
      var request := Allocation(SizeT((blockAlign - n) * blocks * 4));
      && (r == Err(OutOfMemory) <==> request > maxAlloc)
      && (r == Err(WritesPastAllocation) <==> request <= maxAlloc && 2 * (blocks * BlockSamples(n, blockAlign)) > request)
      && (r.Ok? <==> (&& request <= maxAlloc
                      && 2 * (blocks * BlockSamples(n, blockAlign)) <= request
                      && DecodeBlocks(buf, offset, n, blockAlign, blocks).Ok?))
    ensures r.Err? ==> r.error in {DivisionByZero, OutOfMemory, WritesPastAllocation, ReadsPastEnd, StepIndexOutOfRange}
  {
    if blockAlign == 0 then Err(DivisionByZero)
    else
      var blocks := BlockCount(length, blockAlign);
      var effective := SizeT((blockAlign - n) * blocks * 4);
      if Allocation(effective) > maxAlloc then Err(OutOfMemory)
      else if 2 * (blocks * BlockSamples(n, blockAlign)) > Allocation(effective) then Err(WritesPastAllocation)
      else
        var samples :- DecodeBlocks(buf, offset, n, blockAlign, blocks);
        Ok((Samples(samples), AlSizei(effective)))
  }

  /** The IMA4 case as evidently intended: a block align of zero or one
      that is not a whole number of groups is corrupt, a bad step index is
      corrupt, and the reported size is the bytes actually written. Every
      read stays inside the payload window. */
  function DecodeIma4Intended(buf: seq<byte>, offset: nat, length: nat, n: nat, blockAlign: nat, maxAlloc: nat): (r: Result<(Payload, int)>)
    requires 1 <= n <= 2 && offset + length <= |buf|
    ensures r.Ok? <==> (blockAlign > 0 && Aligned(n, blockAlign)
                        && DecodeBlocks(buf, offset, n, blockAlign, BlockCount(length, blockAlign)).Ok?
                        && Allocation(2 * |DecodeBlocks(buf, offset, n, blockAlign, BlockCount(length, blockAlign)).value|) <= maxAlloc)
    ensures r.Ok? ==> (blockAlign > 0 && r.value.0.Samples?
                       && DecodeBlocks(buf, offset, n, blockAlign, BlockCount(length, blockAlign)).Ok?
                       && r.value.0.values == DecodeBlocks(buf, offset, n, blockAlign, BlockCount(length, blockAlign)).value
                       && r.value.1 == 2 * |r.value.0.values|)
    ensures r.Err? ==> r.error == CorruptOrTruncated || r.error == OutOfMemory
  {
    if blockAlign == 0 || !Aligned(n, blockAlign) then Err(CorruptOrTruncated)
    else
      var blocks := BlockCount(length, blockAlign);
      var bytes := 2 * (blocks * BlockSamples(n, blockAlign));
      BlockBytesExact(n, blockAlign);
      match DecodeBlocks(buf, offset, n, blockAlign, blocks)
      case Err(e) =>
        assert e == StepIndexOutOfRange;
        Err(CorruptOrTruncated)
      case Ok(samples) =>
        if Allocation(bytes) > maxAlloc then Err(OutOfMemory)
        else Ok((Samples(samples), bytes))
  }

  /** The conversion switch as written. The linear cases hand back the
      caller's bytes, converted in place where needed. */
  function Decode(buf: seq<byte>, p: Parsed, isLittleEndian: bool, maxAlloc: nat): (r: Result<(Payload, int)>)
    requires p.channels == 1 || p.channels == 2
    ensures r.Ok? && p.codec in {Linear, Pcm8s, Pcm16} ==>
      p.offset + p.length <= |buf| && r.value.0.Raw? && |r.value.0.bytes| == p.length && r.value.1 == AlSizei(p.length)
    ensures r.Ok? && p.codec == Linear ==> r.value.0.bytes == buf[p.offset..p.offset + p.length]
    ensures r.Ok? && p.codec == Pcm8s ==> r.value.0.bytes == OffsetPcm8(buf[p.offset..p.offset + p.length])
    ensures r.Ok? && p.codec == Pcm16 ==> r.value.0.bytes == SwapPcm16(buf[p.offset..p.offset + p.length], isLittleEndian)
    ensures r.Err? && p.codec in {Linear, Pcm8s, Pcm16} ==> r.error == ReadsPastEnd
    ensures r.Ok? && p.codec in {ULaw, ALaw} ==> p.offset + p.length <= |buf|
    ensures r.Ok? && p.codec == ULaw ==> r.value.0 == Samples(ULawDecode(buf[p.offset..p.offset + p.length]))
    ensures r.Ok? && p.codec == ALaw ==> r.value.0 == Samples(ALawDecode(buf[p.offset..p.offset + p.length]))
    ensures r.Ok? && (p.codec == ULaw || p.codec == ALaw) ==> r.value.1 == 2 * AlSizei(p.length)
    ensures r.Ok? && p.codec == Ima4 ==>
      (&& p.blockAlign > 0
       && DecodeBlocks(buf, p.offset, p.channels, p.blockAlign, BlockCount(p.length, p.blockAlign)).Ok?
       && r.value.0 == Samples(DecodeBlocks(buf, p.offset, p.channels, p.blockAlign, BlockCount(p.length, p.blockAlign)).value))
    ensures p.codec == Ima4 ==> r == DecodeIma4(buf, p.offset, p.length, p.channels, p.blockAlign, maxAlloc)
    ensures r.Ok? && p.codec == Ima4 ==>
      r.value.1 == AlSizei(SizeT((p.blockAlign - p.channels) * BlockCount(p.length, p.blockAlign) * 4))
  {
    match p.codec
    case Linear =>
      var w :- Window(buf, p.offset, p.length);
      Ok((Raw(w), AlSizei(p.length)))
    case Pcm8s =>
      var w :- Window(buf, p.offset, p.length);
      Ok((Raw(OffsetPcm8(w)), AlSizei(p.length)))
    case Pcm16 =>
      var w :- Window(buf, p.offset, p.length);
      Ok((Raw(SwapPcm16(w, isLittleEndian)), AlSizei(p.length)))
    case ULaw => DecodeLog(buf, p.offset, p.length, false, maxAlloc)
    case ALaw => DecodeLog(buf, p.offset, p.length, true, maxAlloc)
    case Ima4 => DecodeIma4(buf, p.offset, p.length, p.channels, p.blockAlign, maxAlloc)
  }

  // ---------------------------------------------------------------------
  // The loader
  // ---------------------------------------------------------------------

  /** `alutLoadMemoryFromFileImage` as written. */
  function Load(buf: seq<byte>, isLittleEndian: bool, maxAlloc: nat): (r: Result<Loaded>)
    ensures r.Ok? ==> Parse(buf, isLittleEndian).Ok?
    ensures Parse(buf, isLittleEndian).Err? ==> r == Err(Parse(buf, isLittleEndian).error)
    ensures r.Ok? ==> var p := Parse(buf, isLittleEndian).value;
      && (p.channels == 1 || p.channels == 2)
      && r.value.frequency == p.rate
      && r.value.format == FormatTag(p.channels, p.bits).value
    ensures Parse(buf, isLittleEndian).Ok? ==> var p := Parse(buf, isLittleEndian).value;
      (r.Ok? <==> FormatTag(p.channels, p.bits).Ok? && Decode(buf, p, isLittleEndian, maxAlloc).Ok?)
    ensures r.Ok? ==> var p := Parse(buf, isLittleEndian).value;
      (r.value.payload, r.value.size) == Decode(buf, p, isLittleEndian, maxAlloc).value
  {
    var p :- Parse(buf, isLittleEndian);
    var tag :- FormatTag(p.channels, p.bits);
    var (payload, size) :- Decode(buf, p, isLittleEndian, maxAlloc);
    Ok(Loaded(tag, p.rate, payload, size))
  }

  /** The conversion switch with the intended IMA4 checks. */
  function DecodeIntended(buf: seq<byte>, p: Parsed, isLittleEndian: bool, maxAlloc: nat): (r: Result<(Payload, int)>)
    requires (p.channels == 1 || p.channels == 2) && p.offset + p.length <= |buf|
    ensures p.codec != Ima4 ==> r == Decode(buf, p, isLittleEndian, maxAlloc)
    ensures p.codec in {Linear, Pcm8s, Pcm16} ==> r.Ok?
    ensures r.Err? ==> r.error in {CorruptOrTruncated, OutOfMemory, WritesPastAllocation, SignedOverflow}
  {
    if p.codec == Ima4 then DecodeIma4Intended(buf, p.offset, p.length, p.channels, p.blockAlign, maxAlloc)
    else Decode(buf, p, isLittleEndian, maxAlloc)
  }

  /** The loader as evidently intended. It keeps the `size_t` request and
      the `int` size of the mu-law and A-law cases, which go wrong only for
      payloads of 2^30 bytes and more; otherwise it never reaches undefined
      behaviour. */
  function LoadIntended(buf: seq<byte>, isLittleEndian: bool, maxAlloc: nat): (r: Result<Loaded>)
    ensures r.Ok? ==> ParseIntended(buf, isLittleEndian).Ok?
    ensures r.Ok? ==> var p := ParseIntended(buf, isLittleEndian).value;
      && r.value.frequency == p.rate
      && FormatTagIntended(p.channels, p.bits).Ok?
      && r.value.format == Some(FormatTagIntended(p.channels, p.bits).value)
      && r.value.format.value.Bits() == p.bits && r.value.format.value.Channels() == p.channels
    ensures ParseIntended(buf, isLittleEndian).Ok? ==> var p := ParseIntended(buf, isLittleEndian).value;
      (r.Ok? <==> FormatTagIntended(p.channels, p.bits).Ok? && DecodeIntended(buf, p, isLittleEndian, maxAlloc).Ok?)
    ensures r.Ok? ==> var p := ParseIntended(buf, isLittleEndian).value;
      (r.value.payload, r.value.size) == DecodeIntended(buf, p, isLittleEndian, maxAlloc).value
    ensures r.Err? ==> Reported(r.error) || r.error == SignedOverflow || r.error == WritesPastAllocation
  {
    var p :- ParseIntended(buf, isLittleEndian);
    var tag :- FormatTagIntended(p.channels, p.bits);
    var (payload, size) :- DecodeIntended(buf, p, isLittleEndian, maxAlloc);
    Ok(Loaded(Some(tag), p.rate, payload, size))
  }

  // ---------------------------------------------------------------------
  // Properties
  // ---------------------------------------------------------------------

  /** Away from `.snd` images with a negative declared length, whenever
      both loaders succeed they return the same payload and frequency; the
      format tags agree on 16-bit streams, and the sizes agree except for
      IMA4. */
  lemma LoadAgreesWithIntended(buf: seq<byte>, isLittleEndian: bool, maxAlloc: nat)
    requires 24 <= |buf| && BE32(buf, 0) == SndMagic ==> AuLengthField(buf) >= 0
    requires Load(buf, isLittleEndian, maxAlloc).Ok? && LoadIntended(buf, isLittleEndian, maxAlloc).Ok?
    ensures var a := Load(buf, isLittleEndian, maxAlloc).value;
      var b := LoadIntended(buf, isLittleEndian, maxAlloc).value;
      && a.payload == b.payload && a.frequency == b.frequency
      && (Parse(buf, isLittleEndian).value.bits == 16 ==> a.format == b.format)
      && (Parse(buf, isLittleEndian).value.codec != Ima4 ==> a.size == b.size)
  {
    ParseAgreesUnlessAuLengthNegative(buf, isLittleEndian);
  }

  /** A block align of zero divides by zero as written and is a corrupt
      stream as intended. */
  lemma Ima4ZeroBlockAlign(buf: seq<byte>, offset: nat, length: nat, n: nat, maxAlloc: nat)
    requires 1 <= n <= 2 && offset + length <= |buf|
    ensures DecodeIma4(buf, offset, length, n, 0, maxAlloc) == Err(DivisionByZero)
    ensures DecodeIma4Intended(buf, offset, length, n, 0, maxAlloc) == Err(CorruptOrTruncated)
  {
  }

  /** A stereo stream with a block align of 9: the one block consumes 16
      bytes and writes 32, but the allocation is `(9 - 2) * 1 * 4 == 28`
      bytes. As intended the stream is corrupt. */
  lemma Ima4MisalignedWritesPastAllocation(buf: seq<byte>, offset: nat, maxAlloc: nat)
    requires offset + 9 <= |buf| && maxAlloc >= 28
    ensures BlockBytes(2, 9) == 16 && BlockSamples(2, 9) == 16
    ensures DecodeIma4(buf, offset, 9, 2, 9, maxAlloc) == Err(WritesPastAllocation)
    ensures DecodeIma4Intended(buf, offset, 9, 2, 9, maxAlloc) == Err(CorruptOrTruncated)
  {
    assert Groups(8, 9, 2) == 1 by {
      assert Groups(16, 9, 2) == 0;
    }
    assert BlockCount(9, 9) == 1;
  }

  /** With whole groups per block, a 32-bit payload length and the
      payload inside the image, the as-written IMA4 case neither reads past
      the image nor writes past its allocation: it fails only for want of
      memory or for a bad step index. */
  lemma Ima4AlignedIsDefined(buf: seq<byte>, offset: nat, length: nat, n: nat, blockAlign: nat, maxAlloc: nat)
    requires 1 <= n <= 2 && offset + length <= |buf| && length < TwoTo32
    requires blockAlign > 0 && Aligned(n, blockAlign)
    ensures var r := DecodeIma4(buf, offset, length, n, blockAlign, maxAlloc);
      r.Ok? || r.error == OutOfMemory || r.error == StepIndexOutOfRange
    ensures var blocks := BlockCount(length, blockAlign);
      DecodeIma4(buf, offset, length, n, blockAlign, maxAlloc).Ok?
      <==> Allocation(SizeT((blockAlign - n) * blocks * 4)) <= maxAlloc && DecodeBlocks(buf, offset, n, blockAlign, blocks).Ok?
  {
    AlignedFits(offset, length, |buf|, n, blockAlign);
    var decoded := DecodeBlocks(buf, offset, n, blockAlign, BlockCount(length, blockAlign));
    assert decoded.Ok? || decoded.error == StepIndexOutOfRange;
  }

  /** The arithmetic behind `Ima4AlignedIsDefined`: aligned blocks stay
      inside the payload, and their samples inside the allocation. */
  lemma AlignedFits(offset: nat, length: nat, size: nat, n: nat, blockAlign: nat)
    requires 1 <= n <= 2 && offset + length <= size && length < TwoTo32
    requires blockAlign > 0 && Aligned(n, blockAlign)
    ensures var blocks := BlockCount(length, blockAlign);
      && 2 * (blocks * BlockSamples(n, blockAlign)) <= Allocation(SizeT((blockAlign - n) * blocks * 4))
      && offset + blocks * BlockBytes(n, blockAlign) <= size
  {
    var blocks := BlockCount(length, blockAlign);
    AlignedSizes(n, blockAlign, blocks);
    RequestFits(blockAlign - n, blockAlign, blocks, length);
    var written := 2 * (blocks * BlockSamples(n, blockAlign));
    var request := (blockAlign - n) * blocks * 4;
    assert written <= request;
  }

  /** Sizes of `blocks` aligned blocks: each consumes `blockAlign` bytes
      and writes `4 * (blockAlign - 4n)` bytes of samples, `12n` fewer than
      the `4 * (blockAlign - n)` the loader allocates and reports. */
  lemma AlignedSizes(n: nat, blockAlign: nat, blocks: nat)
    requires 1 <= n <= 2 && Aligned(n, blockAlign)
    ensures BlockBytes(n, blockAlign) == blockAlign
    ensures 2 * (blocks * BlockSamples(n, blockAlign)) == 4 * ((blockAlign - 4 * n) * blocks)
    ensures (blockAlign - n) * blocks * 4 == 4 * ((blockAlign - 4 * n) * blocks) + 12 * (n * blocks)
  {
    BlockBytesExact(n, blockAlign);
    var x := blockAlign - 4 * n;
    assert BlockSamples(n, blockAlign) == 2 * x;
    Distribute(x, n, blockAlign - n, blocks, BlockSamples(n, blockAlign));
  }

  /** The products `AlignedSizes` needs, with every factor named. */
  lemma Distribute(a: nat, n: nat, t: nat, c: nat, s: nat)
    requires t == a + 3 * n && s == 2 * a
    ensures t * c * 4 == 4 * (a * c) + 12 * (n * c)
    ensures 2 * (c * s) == 4 * (a * c)
  {
  }

  /** The allocation request of the IMA4 case fits in a `size_t` when the
      payload length fits in 32 bits. */
  lemma RequestFits(t: nat, blockAlign: nat, blocks: nat, length: nat)
    requires t <= blockAlign && blocks * blockAlign <= length < TwoTo32
    ensures SizeT(t * blocks * 4) == t * blocks * 4
  {
    assert t * blocks <= blockAlign * blocks;
    var e := t * blocks;
    assert 0 <= e;
  }

  /** As written, a successful aligned IMA4 load reports `12n` bytes per
      block more than it wrote, and the caller reads them as samples; as
      intended the size is exactly the samples written. */
  lemma Ima4SizeCountsUnwritten(buf: seq<byte>, offset: nat, length: nat, n: nat, blockAlign: nat, maxAlloc: nat)
    requires 1 <= n <= 2 && offset + length <= |buf| && blockAlign > 0 && Aligned(n, blockAlign)
    requires DecodeIma4(buf, offset, length, n, blockAlign, maxAlloc).Ok?
    requires (blockAlign - n) * BlockCount(length, blockAlign) * 4 < TwoTo31
    ensures var r := DecodeIma4(buf, offset, length, n, blockAlign, maxAlloc).value;
      r.1 == 2 * |r.0.values| + 12 * (n * BlockCount(length, blockAlign))
    ensures var r := DecodeIma4Intended(buf, offset, length, n, blockAlign, maxAlloc);
      r.Ok? ==> r.value.1 == 2 * |r.value.0.values|
  {
    var blocks := BlockCount(length, blockAlign);
    AlignedReport(n, blockAlign, blocks);
    var written := |DecodeBlocks(buf, offset, n, blockAlign, blocks).value|;
    assert written == blocks * BlockSamples(n, blockAlign);
  }

  /** The Findings example of `Ima4SizeCountsUnwritten`: a silent mono
      block of 36 bytes loads as written, writes 64 samples (128 bytes) and
      reports 140. */
  lemma Ima4SilentMonoBlock(maxAlloc: nat)
    requires maxAlloc >= 140
    ensures var r := DecodeIma4(seq(36, _ => 0), 0, 36, 1, 36, maxAlloc);
      r.Ok? && |r.value.0.values| == 64 && r.value.1 == 140
  {
    var buf: seq<byte> := seq(36, _ => 0);
    assert Aligned(1, 36);
    AlignedSizes(1, 36, 1);
    assert BlockCount(36, 36) == 1;
    assert PreambleChannel(buf, 0, 0).index == 0;
    assert PreambleValid(buf, 0, 1);
    assert DecodeBlock(buf, 0, 1, 36).Ok?;
    assert DecodeBlocks(buf, 0, 1, 36, 1).Ok?;
    Ima4AlignedIsDefined(buf, 0, 36, 1, 36, maxAlloc);
    Ima4SizeCountsUnwritten(buf, 0, 36, 1, 36, maxAlloc);
  }

  /** The arithmetic behind `Ima4SizeCountsUnwritten`: the reported size
      of aligned blocks, when it fits in an `ALsizei`, exceeds the bytes
      written by `12n` per block. */
  lemma AlignedReport(n: nat, blockAlign: nat, blocks: nat)
    requires 1 <= n <= 2 && Aligned(n, blockAlign)
    requires (blockAlign - n) * blocks * 4 < TwoTo31
    ensures AlSizei(SizeT((blockAlign - n) * blocks * 4)) == 2 * (blocks * BlockSamples(n, blockAlign)) + 12 * (n * blocks)
  {
    AlignedSizes(n, blockAlign, blocks);
    StoredSize(blockAlign - n, blocks);
  }

  /** A request below 2^31 survives `size_t` and `ALsizei` unchanged. */
  lemma StoredSize(t: nat, blocks: nat)
    requires t * blocks * 4 < TwoTo31
    ensures SizeT(t * blocks * 4) == t * blocks * 4 && AlSizei(t * blocks * 4) == t * blocks * 4
  {
    var e := t * blocks;
    assert 0 <= e;
  }

  /** A canonical 16-bit PCM WAV image loads back to its payload on a
      little-endian host, and to its payload with every word's bytes
      exchanged on a big-endian one. */
  lemma WavPcm16RoundTrip(channels: nat, rate: nat, blockAlign: nat, payload: seq<byte>, isLittleEndian: bool, maxAlloc: nat)
    requires (channels == 1 || channels == 2) && rate < TwoTo31 && blockAlign < TwoTo16 && |payload| + 36 < TwoTo31
    ensures var img := WavImage(1, channels, rate, blockAlign, 16, payload);
      Load(img, isLittleEndian, maxAlloc)
      == Ok(Loaded(Some(if channels == 1 then Mono16 else Stereo16), rate,
                   Raw(if isLittleEndian then payload else SwapPcm16(payload, isLittleEndian)), |payload|))
  {
    var img := WavImage(1, channels, rate, blockAlign, 16, payload);
    WavRoundTrip(1, channels, rate, blockAlign, 16, payload, isLittleEndian);
    var codec := if isLittleEndian then Linear else Pcm16;
    assert FmtCodec(1, 16, isLittleEndian) == Ok((codec, 16));
    var p := Parsed(codec, channels, 16, rate, blockAlign, 44, |payload|);
    assert Parse(img, isLittleEndian) == Ok(p);
    var tag := if channels == 1 then Mono16 else Stereo16;
    assert FormatTag(channels, 16) == Ok(Some(tag));
    assert img[44..44 + |payload|] == payload;
    var raw := if isLittleEndian then payload else SwapPcm16(payload, isLittleEndian);
    assert Decode(img, p, isLittleEndian, maxAlloc) == Ok((Raw(raw), |payload|));
  }

  /** A canonical 8-bit A-law (format 6) or mu-law (format 7) WAV image
      loads to the G.711 expansion of its payload under that law, tagged
      16-bit, as written and as intended. */
  lemma WavG711RoundTrip(audioFormat: nat, channels: nat, rate: nat, blockAlign: nat, payload: seq<byte>,
                         isLittleEndian: bool, maxAlloc: nat)
    requires audioFormat == 6 || audioFormat == 7
    requires (channels == 1 || channels == 2) && rate < TwoTo31 && blockAlign < TwoTo16
    requires |payload| < TwoTo31 / 2 && Allocation(2 * |payload|) <= maxAlloc
    ensures var img := WavImage(audioFormat, channels, rate, blockAlign, 8, payload);
      && Load(img, isLittleEndian, maxAlloc)
         == Ok(Loaded(Some(if channels == 1 then Mono16 else Stereo16), rate,
                      Samples(if audioFormat == 6 then ALawDecode(payload) else ULawDecode(payload)), 2 * |payload|))
      && LoadIntended(img, isLittleEndian, maxAlloc) == Load(img, isLittleEndian, maxAlloc)
  {
    var img := WavImage(audioFormat, channels, rate, blockAlign, 8, payload);
    WavRoundTrip(audioFormat, channels, rate, blockAlign, 8, payload, isLittleEndian);
    var codec := if audioFormat == 6 then ALaw else ULaw;
    assert FmtCodec(audioFormat, 8, isLittleEndian) == Ok((codec, 16));
    var p := Parsed(codec, channels, 16, rate, blockAlign, 44, |payload|);
    assert Parse(img, isLittleEndian) == Ok(p);
    assert img[44..44 + |payload|] == payload;
    G711Window(img, p, payload, isLittleEndian, maxAlloc);
  }

  /** A `.snd` image with data offset 24 and an A-law (27) or mu-law (1)
      encoding loads to the G.711 expansion of its payload under that law,
      tagged 16-bit, as written and as intended. */
  lemma AuG711RoundTrip(encoding: nat, rate: nat, channels: nat, payload: seq<byte>, isLittleEndian: bool, maxAlloc: nat)
    requires encoding == AuULaw8 || encoding == AuALaw8
    requires 1 <= rate < TwoTo31 && (channels == 1 || channels == 2)
    requires 0 < |payload| < TwoTo31 / 2 && 2 * |payload| <= maxAlloc
    ensures var img := AuImage(24, |payload|, encoding, rate, channels, payload);
      && Load(img, isLittleEndian, maxAlloc)
         == Ok(Loaded(Some(if channels == 1 then Mono16 else Stereo16), rate,
                      Samples(if encoding == AuALaw8 then ALawDecode(payload) else ULawDecode(payload)), 2 * |payload|))
      && LoadIntended(img, isLittleEndian, maxAlloc) == Load(img, isLittleEndian, maxAlloc)
  {
    var img := AuImage(24, |payload|, encoding, rate, channels, payload);
    AuRoundTrip(encoding, rate, channels, payload, isLittleEndian);
    var codec := if encoding == AuALaw8 then ALaw else ULaw;
    assert AuCodec(encoding, isLittleEndian) == Ok((codec, 16));
    var p := Parsed(codec, channels, 16, rate, 1, 24, |payload|);
    assert BE32(img, 0) != RiffMagic;
    assert Parse(img, isLittleEndian) == ParseAu(img, isLittleEndian) == Ok(p);
    assert img[24..24 + |payload|] == payload;
    G711Window(img, p, payload, isLittleEndian, maxAlloc);
  }

  /** The common last step of the two G.711 round trips: a parsed G.711
      window over `payload` converts to its expansion under both loaders. */
  lemma G711Window(img: seq<byte>, p: Parsed, payload: seq<byte>, isLittleEndian: bool, maxAlloc: nat)
    requires (p.codec == ULaw || p.codec == ALaw) && (p.channels == 1 || p.channels == 2) && p.bits == 16
    requires p.offset + p.length <= |img| && img[p.offset..p.offset + p.length] == payload
    requires |payload| < TwoTo31 / 2 && Allocation(2 * |payload|) <= maxAlloc
    ensures Decode(img, p, isLittleEndian, maxAlloc)
         == DecodeIntended(img, p, isLittleEndian, maxAlloc)
         == Ok((Samples(if p.codec == ALaw then ALawDecode(payload) else ULawDecode(payload)), 2 * |payload|))
    ensures FormatTag(p.channels, p.bits) == Ok(Some(FormatTagIntended(p.channels, p.bits).value))
    ensures FormatTagIntended(p.channels, p.bits) == Ok(if p.channels == 1 then Mono16 else Stereo16)
  {
    assert SizeT(|payload| * 2) == 2 * |payload|;
    assert AlSizei(|payload|) == |payload|;
  }
}

=== FILE: pcm.dfy ===
/** The two in-place PCM conversions of the loader (min_alut.h:208-219),
    modelled as functions that return a fresh byte sequence of the same
    length instead of overwriting the caller's buffer. */
module Pcm {
  import opened Bytes

  /** The bit pattern left in an `int8_t` after `x` is stored into it. */
  function StoreInt8(x: int): (r: byte)
    ensures (r - x) % 256 == 0
  {
    x % 256
  }

  /** `((int8_t*)data)[i] += (int8_t)128` for every byte: each signed 8-bit
      sample becomes the offset-128 unsigned sample OpenAL expects. */
  function OffsetPcm8(s: seq<byte>): (r: seq<byte>)
    ensures |r| == |s|
    ensures forall i :: 0 <= i < |s| ==> r[i] == Int8(s[i]) + 128
    ensures forall i :: 0 <= i < |s| ==> r[i] == (s[i] as int + 128) % 256
  {
    seq(|s|, i requires 0 <= i < |s| => StoreInt8(Int8(s[i]) + Int8(128)))
  }

  /** Offsetting twice gives back the original bytes. */
  lemma OffsetPcm8Involution(s: seq<byte>)
    ensures OffsetPcm8(OffsetPcm8(s)) == s
  {
  }

  /** The word expression `((x << 8) & 0xFF00) | ((x >> 8) & 0x00FF)`. The
      source shifts a sign-extended `int16_t`; the masks discard every bit
      where arithmetic and logical shifts differ, so `bv16` models it. */
  function SwapWord(x: bv16): bv16 {
    ((x << 8) & 0xFF00) | ((x >> 8) & 0x00FF)
  }

  /** The 16-bit word that the bytes `b0, b1` (in memory order) hold on a
      host of the given byte order. */
  function HostWord(b0: bv8, b1: bv8, isLittleEndian: bool): bv16 {
    if isLittleEndian then (b0 as bv16) | ((b1 as bv16) << 8)
    else ((b0 as bv16) << 8) | (b1 as bv16)
  }

  /** Byte `k` (0 or 1, in memory order) of the word `w`. */
  function WordByte(w: bv16, k: int, isLittleEndian: bool): bv8 {
    if (k == 0) == isLittleEndian then (w & 0xFF) as bv8 else (w >> 8) as bv8
  }

  /** Whatever the host byte order, the word expression exchanges the two
      bytes of the word in memory. */
  lemma SwapWordSwapsBytes(b0: bv8, b1: bv8, isLittleEndian: bool)
    ensures WordByte(SwapWord(HostWord(b0, b1, isLittleEndian)), 0, isLittleEndian) == b1
    ensures WordByte(SwapWord(HostWord(b0, b1, isLittleEndian)), 1, isLittleEndian) == b0
  {
  }

  /** Word `w` of `s` after the swap loop has rewritten it, byte `k`. */
  function SwappedByte(s: seq<byte>, w: nat, k: int, isLittleEndian: bool): (r: byte)
    requires 2 * w + 1 < |s| && (k == 0 || k == 1)
    ensures r == s[2 * w + 1 - k]
  {
    var b0 := s[2 * w] as bv8;
    var b1 := s[2 * w + 1] as bv8;
    var out := WordByte(SwapWord(HostWord(b0, b1, isLittleEndian)), k, isLittleEndian);
    SwapWordSwapsBytes(b0, b1, isLittleEndian);
    assert out == (if k == 0 then b1 else b0);
    ByteBits(s[2 * w]);
    ByteBits(s[2 * w + 1]);
    out as int
  }

  /** The other byte of the 16-bit word that position `i` belongs to. */
  function Partner(i: int): int {
    if i % 2 == 0 then i + 1 else i - 1
  }

  /** The byte-swap loop over the `length / 2` whole words of `s`, each
      rewritten through the word expression in host byte order; a trailing
      odd byte is left alone. */
  function SwapPcm16(s: seq<byte>, isLittleEndian: bool): (r: seq<byte>)
    ensures |r| == |s|
    ensures forall i :: 0 <= i < |s| ==> r[i] == (if i / 2 < |s| / 2 then s[Partner(i)] else s[i])
  {
    seq(|s|, i requires 0 <= i < |s| =>
      if i / 2 < |s| / 2 then SwappedByte(s, i / 2, i % 2, isLittleEndian) else s[i])
  }

  /** Swapping twice gives back the original bytes. */
  lemma SwapPcm16Involution(s: seq<byte>, isLittleEndian: bool)
    ensures SwapPcm16(SwapPcm16(s, isLittleEndian), isLittleEndian) == s
  {
    var once := SwapPcm16(s, isLittleEndian);
    var twice := SwapPcm16(once, isLittleEndian);
    forall i | 0 <= i < |s|
      ensures twice[i] == s[i]
    {
      if i / 2 < |s| / 2 {
        assert Partner(i) / 2 == i / 2 && Partner(Partner(i)) == i;
      }
    }
  }
}
